=== FILE: README.md ===
# Patron records of the SF library-usage extract: loaders and dashboards

The system loads the San Francisco Public Library "library usage" CSV extract
into two back ends: a relational `PATRONS` table with four lookup tables, and
a `patrons` document collection. It then offers one small dashboard per back
end with Add, Update, Search and Delete tabs. This model covers the logic that
sits between the UI widgets and the database drivers.

- **The two batch loaders** (modules `CsvRows`, `MysqlLoader`, `MongoLoader`).
  They skip the title and header lines and the blank rows. `g(i)` reads a
  trimmed cell, or `""` past the end of a short row. The count columns are
  read as integers, falling back to `NULL`. `parse_bool` reads the two flags.
  The relational loader builds a 14-value row per record, collects the
  distinct lookup values, and issues every lookup insert before the patron
  inserts. The document loader numbers its documents 1..n in file order.
- **The dashboards' validators** (modules `Fields`, `Coerce`, `MongoApp`,
  `SqlApp`). They cover:
  - the field whitelist, and the integer/boolean/text field classes;
  - blank input meaning `NULL`;
  - the true/false token tables;
  - integer coercion;
  - "LIKE only on text fields";
  - the Add tabs' documents and parameter tuples;
  - the Update, Search and Delete statements each tab builds.
- **An abstract patrons store** (module `PatronStore`). It is a map from
  `Patron_ID` to the patron's other fields, with these operations:
  - insert under `next_id`;
  - set or unset one field;
  - change the id;
  - delete with a not-found outcome.
- **Agreement between the back ends** (module `Backends`). The same CSV row,
  Add form or Update input leads to the same stored field values, ids aside,
  with booleans stored as 1/0 on the relational side. The known differences
  are these:
  - an empty `Age_Range` is `NULL` in the table and `""` in the documents;
  - the dashboards accept `t`/`1`/`yes` and `f`/`0`/`no` as flag tokens, but
    the loaders do not;
  - the ids are assigned differently, and the comparisons leave them out.
    The document loader numbers the kept rows 1..n, and the document Add
    takes the largest `Patron_ID` plus one, which reuses the id of a deleted
    top patron. The table takes its ids from `AUTO_INCREMENT`
    (scripts/load_table_to_mysql.py:88-89), which never reuses one and which
    continues after the rows a table created earlier already holds.

Python's string behaviour is modelled in `Text`:
- `strip()` removes the full `str.isspace()` set;
- `lower()` works on ASCII letters;
- `int()` reads an optional sign and decimal digits, after stripping.

A CSV file is the list of rows the `csv` reader yields. Each row is a list
of cells.

## Model

| member | source | states |
|---|---|---|
| Text.Strip | scripts/load_table_to_mysql.py:164 | `str.strip()`: the result is never longer than the input. What it keeps is pinned by `StripFacts`, `StripPadded` and `StripSplit`: exactly the input without its leading and trailing whitespace. |
| Text.StripPadded | scripts/load_table_to_mysql.py:163-164 | Whitespace on either side of a trimmed text is removed, and nothing else. With `StripFacts`, this pins `strip()` down completely. |
| Text.StripFacts | scripts/load_table_to_mysql.py:160 | A stripped text has no whitespace at either end. It is empty exactly when the input is all whitespace, which is the blank-cell test. |
| Text.StripIdempotent | mongo/app.py:210 | Stripping twice is the same as stripping once. |
| Text.StripSplit | mongo/app.py:210 | `strip()` only cuts whitespace from the two ends. |
| Text.ParseInt | mongo/app.py:213 | `int()` on a text: it only succeeds on a text that is not blank after stripping. Which texts it refuses is fixed by its body (an optional sign, then ASCII digits, after stripping), and `ParseShowInt` with `CsvRows.IntCellShow` pins that the decimal text of every integer reads back as that integer. |
| Text.ParseShowInt | scripts/load_table_to_mysql.py:172 | `int()` reads the decimal text of any integer back as that integer, negatives included. |
| Text.Lower | mongo/app.py:216 | `lower()` keeps the length of the text. `LowerKeepsLowerCase` shows that a text with no upper-case ASCII letter is its own lower-case form. |
| Text.LowerKeepsLowerCase | mongo/app.py:216-222 | A text with no upper-case ASCII letter is left unchanged, so every token table, written in lower case, compares the same as under full Unicode case mapping. |
| Fields.AllowedField | mongo/app.py:206-208 | A name from the Update tab is accepted exactly when some whitelisted field has that name, and it denotes that field. |
| Fields.FieldClassesPartitionAllowed | mongo/app.py:18-37 | `INT_FIELDS`, `BOOL_FIELDS` and `STRING_FIELDS` are pairwise disjoint, and their union is exactly `ALLOWED_FIELDS`. |
| CsvRows.Cell | scripts/load_table_to_mysql.py:163-164 | `g(i)` is `""` past the end of the row. Otherwise it is the cell with whitespace cut from both ends and nothing else: no whitespace at either end, empty exactly for an all-whitespace cell, and the cell is it with only whitespace around it. |
| CsvRows.ColumnOfIndexes | scripts/load_table_to_mysql.py:135-150 | Every field other than the two ids is read from exactly one CSV cell, and `Columns` at that cell names the field. |
| CsvRows.ColumnsDistinct | scripts/load_table_to_mysql.py:135-150 | No two positions of the column list name the same field. |
| CsvRows.CellPadded | scripts/load_table_to_mysql.py:163-164 | A short row reads exactly like the same row padded with empty cells. |
| CsvRows.BlankRowHasNoCells | scripts/load_table_to_mysql.py:159-161 | A row is skipped exactly when every cell `g` can read from it is empty. Rows with no cells are included. |
| CsvRows.Body | scripts/load_table_to_mysql.py:132-133 | The first two rows (title and header) are consumed before any data. A file with fewer than two rows has no data. |
| CsvRows.Kept | scripts/load_table_to_mysql.py:159-161 | The rows the read loops keep, skipping each row that `IsBlankRow` calls blank (no cells, or only blank ones). There are never more kept rows than input rows; `KeptMembers`, `KeptSnoc` and `KeptAppend` pin which rows are kept, and in what order. |
| CsvRows.KeptMembers | scripts/load_table_to_mysql.py:159-161 | The output rows are exactly the non-blank input rows. |
| CsvRows.KeptAppend | scripts/load_table_to_mysql.py:159-224 | Filtering works row by row, so kept rows stay in file order. |
| CsvRows.KeptSnoc | scripts/load_table_to_mysql.py:159-161 | Reading one more row keeps it exactly when it is not blank. |
| CsvRows.IntCell | scripts/load_table_to_mysql.py:169-181 | A count column is `NULL` exactly when its cell is empty or does not parse. Otherwise it holds the parsed integer. |
| CsvRows.IntCellShow | scripts/load_table_to_mysql.py:169-174 | A cell holding the decimal text of `n` gives the count `n`. |
| MysqlLoader.ParseBool | scripts/load_table_to_mysql.py:10-19 | No value gives `NULL`. Trimmed, lower-cased `true` gives 1 and `false` gives 0. Anything else, `""` and `yes` included, gives `NULL`. |
| MysqlLoader.ColumnValue | scripts/load_table_to_mysql.py:166-197 | Column `k` comes from cell `k`. A count is exactly `IntCell` of its cell. A flag is 1 for `true`, 0 for `false`, and `NULL` otherwise, never text. `Age_Range` is `NULL` exactly when its cell is empty. Every other column is the trimmed cell as text, `""` included. |
| MysqlLoader.PatronRow | scripts/load_table_to_mysql.py:208-223 | Every emitted row has exactly 14 values, in the order of `columns`. |
| MysqlLoader.PatronRowPadded | scripts/load_table_to_mysql.py:163-164 | A short row gives the same 14 values as the padded row. |
| MysqlLoader.LookupValuesSnoc | scripts/load_table_to_mysql.py:199-206 | One more row adds its non-empty value, if any, to a lookup set. |
| MysqlLoader.GatheredSnoc | scripts/load_table_to_mysql.py:166-224 | One pass of the loop body extends the rows and the four sets exactly as the reference definition over the kept rows does. |
| MysqlLoader.GatherStep | scripts/load_table_to_mysql.py:159-224 | Reading a row gathers it, unless the row is blank. |
| MysqlLoader.Load | scripts/load_table_to_mysql.py:132-224 | The read loop gives one row per kept CSV row, in order. Each lookup set holds the non-empty values of its column. This is stated against an independent whole-file definition. |
| MysqlLoader.GatheredContents | scripts/load_table_to_mysql.py:199-206 | Output row `k` is built from kept row `k`. Each lookup table holds exactly the non-empty values of its cell over the kept rows (non-null for `Age_Range`). |
| MysqlLoader.Enumerate | scripts/load_table_to_mysql.py:226-245 | Iterating a set yields each element exactly once. |
| MysqlLoader.LookupInsertsMembers | scripts/load_table_to_mysql.py:226-245 | The lookup inserts name every value of each table, under that table, and nothing else. |
| MysqlLoader.Statements | scripts/load_table_to_mysql.py:226-251 | Each distinct lookup value is inserted once. Every lookup insert precedes every `PATRONS` insert. The `PATRONS` inserts follow the kept rows in file order. |
| MysqlLoader.AllLookupInsertsDistinct | scripts/load_table_to_mysql.py:226-245 | Distinct values in each table give distinct lookup inserts overall. |
| MysqlLoader.LookupsThenPatrons | scripts/load_table_to_mysql.py:226-251 | Every lookup insert comes before every patron insert, and the patron inserts add no lookup values. |
| MysqlLoader.LookupInsertsDistinct | scripts/load_table_to_mysql.py:226-245 | No lookup insert is issued twice. |
| MysqlLoader.CommaListCount | scripts/load_table_to_mysql.py:152-155 | A character that occurs once in each item occurs once per item in the comma-joined list. |
| MysqlLoader.InsertQueryShape | scripts/load_table_to_mysql.py:152-155 | The insert names as many columns as a row has values, and its placeholder list carries one `%s` per value. |
| MongoLoader.ParseBool | mongo/load_table_to_mongodb.py:8-16 | `True` for `true` and `False` for `false`, after trimming and lower-casing. `None` for anything else and for no value. |
| MongoLoader.DocValue | mongo/load_table_to_mongodb.py:49-80 | Both ids are the document number. A text key holds exactly the trimmed cell of its own column, `""` included (so an empty `Age_Range` stays `""`). A count is exactly `IntCell` of its column, and a flag exactly `FlagCell` of its column. |
| MongoLoader.FlagCell | mongo/load_table_to_mongodb.py:8-16 | A flag cell is `None` unless it reads as `true` or `false` after trimming and lower-casing; then it is that boolean. |
| MongoLoader.Document | mongo/load_table_to_mongodb.py:63-80 | Every document carries all sixteen keys, whatever the row's length. |
| MongoLoader.DocumentPadded | mongo/load_table_to_mongodb.py:46-47 | A document does not depend on how many empty cells pad its row. |
| MongoLoader.DocumentsAt | mongo/load_table_to_mongodb.py:62-81 | Document `k` (from 0) is built from kept row `k` under number `k + 1`. |
| MongoLoader.DocumentIds | mongo/load_table_to_mongodb.py:62-65 | The `k`-th kept row gets `_id == Patron_ID == k`. The ids are therefore 1..n, unique and strictly increasing. |
| MongoLoader.DocumentsSnoc | mongo/load_table_to_mongodb.py:62-81 | One more kept row appends one document, numbered after the others. |
| MongoLoader.ReadStep | mongo/load_table_to_mongodb.py:42-81 | Reading a row appends its document unless the row is blank. |
| MongoLoader.Load | mongo/load_table_to_mongodb.py:39-81 | The loop's documents are the whole-file reference: one per kept row, numbered in file order. |
| MongoLoader.LoadedStore | mongo/load_table_to_mongodb.py:62-81 | The loaded collection, seen as a store keyed by `Patron_ID`, has ids exactly 1..n, and no record repeats its ids inside. |
| MongoLoader.LoadedStoreField | mongo/load_table_to_mongodb.py:62-81 | Patron `j + 1` of the loaded store is kept row `j`: its document has `_id == Patron_ID == j + 1`, and each other field holds the value the loader computed for that key. |
| Coerce.NullIfBlank | mongo/app.py:210 | Whitespace-only input means no value. Any other input gives a non-empty, trimmed text that the input surrounds with whitespace only. |
| Coerce.BoolToken | mongo/app.py:215-222 | `true/t/1/yes` mean true and `false/f/0/no` mean false. Every other token means neither. |
| Coerce.OrNull | mongo/app.py:170-179 | `text or None`: only the empty text becomes null. Whitespace is kept as typed. |
| Coerce.NullableFlag | mongo/app.py:178-180 | The "set NULL" checkbox wins over the toggle. |
| PatronStore.NextId | mongo/app.py:164-165 | `next_id` is 1 on an empty store. Otherwise it is one more than the largest `Patron_ID`, so no patron has it. |
| PatronStore.Insert | mongo/app.py:167-184 | Insert adds exactly one patron under the new id and keeps every other patron. |
| PatronStore.Apply | mongo/app.py:228-231 | `$set` stores the value and `$unset` removes the field. Every other field keeps its value. |
| PatronStore.Update | mongo/app.py:228-231 | Only the patron with the given id changes, and only in the chosen field. A missing id changes nothing. |
| PatronStore.UpdateKey | mongo/app.py:225-231 | Changing a patron's id moves its record to the new key. It fails for a `NULL` or non-integer id, or for an id another patron has. |
| PatronStore.Delete | mongo/app.py:320-325 | A missing id gives `NotFound` and the same store. Otherwise exactly that patron is removed. |
| PatronStore.UpdateKeepsValid | mongo/app.py:228-231 | A field update never plants an id inside a record. |
| PatronStore.DeleteInsert | mongo/app.py:164-184 | Deleting a patron that was just inserted gives the store back. |
| PatronStore.SetThenGet | mongo/app.py:228-231 | Reading a field after setting it gives the value set. Unsetting and then setting is the same as setting. |
| PatronStore.UpdateNoOp | mongo/app.py:228-231 | Unsetting an absent field, or setting a field to its current value, changes nothing. |
| MongoApp.NewRecord | mongo/app.py:167-181 | The Add document has exactly the eleven form fields beside the two ids. |
| MongoApp.NewRecordNulls | mongo/app.py:170-180 | A new field is null exactly when its text input is empty, its number input is empty, or its "set NULL" box is ticked. Only the flags are booleans. |
| MongoApp.Add | mongo/app.py:164-184 | The new patron's id is fresh and larger than every id. The store gains exactly that patron and stays valid. |
| MongoApp.Coerced | mongo/app.py:210-222 | Update coercion fails exactly for a non-integer on an integer field. Blank input unsets. An integer field is set to the integer `int()` reads. A flag is set to `True` for `true/t/1/yes`, to `False` for `false/f/0/no`, and is unset for any other token. Every other field is set to the trimmed text. |
| MongoApp.UpdateChangeAsWritten | mongo/app.py:206-222 | Update coercion as written. It rejects exactly the names off the whitelist. The change is `Coerced` with only the two counts going through `int()`, so a new `Patron_ID` is set to its trimmed text. |
| MongoApp.UpdateChange | mongo/app.py:206-222 | The same coercion with every `INT_FIELDS` member going through `int()`. It rejects exactly the names off the whitelist, fails exactly for a non-integer on an integer field, and otherwise writes what `Coerced` writes. |
| MongoApp.CoercedWrites | mongo/app.py:210-222 | A successful coercion, read back by field class: blank unsets; an integer field holds the integer `int()` reads; a flag is `True`, `False` or unset exactly as its token says; any other field holds the trimmed text. |
| MongoApp.UpdateChangeOnlyPatronIdDiffers | mongo/app.py:212-213 | The coercion as written and the corrected one differ only on `Patron_ID`. |
| MongoApp.Search | mongo/app.py:259-288 | IS NULL ignores the value. LIKE is refused off the text fields and is a regex on the trimmed value. An exact search is refused for a non-integer on an integer field and for an unknown token on a flag (not turned into null). Otherwise it compares with the integer `int()` reads, the boolean of the token, or the trimmed text. |
| MongoApp.UpdateThenSearch | mongo/app.py:210-288 | What Update writes, an exact Search with the same input finds. A set value matches the equality filter, and an unset field matches IS NULL. |
| MongoApp.PatronIdUpdateUnsearchable | mongo/app.py:212-213 | As written, updating `Patron_ID` to `7` stores the text `"7"`. The exact search for `7` looks for the integer 7 and misses it. |
| MongoApp.Update | mongo/app.py:204-231 | Names off the whitelist are rejected, and `NotAnInteger` is returned exactly when the coercion refuses the value. An accepted change of a descriptive field is exactly that field's set or unset on the patron with the given id, through `PatronStore.Update`: the other fields and the other patrons are kept. A change of `Patron_ID` succeeds exactly when `PatronStore.UpdateKey` does, with its store. |
| MongoApp.DeletePatron | mongo/app.py:315-329 | `find_one` is always called first. `delete_one` is called exactly when it found the patron. A missing id gives not-found and the same store. Otherwise exactly that patron is removed. |
| SqlApp.InsertParams | app/app.py:179-199 | The tuple has 11 values, one per listed column, in order. `Patron_ID` is not among them; it is left to `AUTO_INCREMENT`. |
| SqlApp.InsertParamsFlags | app/app.py:188-190 | No parameter is a boolean. A flag is `NULL` when its box is ticked, and 1/0 otherwise. |
| SqlApp.InsertedRecord | app/app.py:179-199 | The inserted row holds parameter `k` in listed column `k`, and has no other column. |
| SqlApp.Insert | app/app.py:192-202 | The table gains exactly the inserted row under a fresh id. |
| SqlApp.UpdateValue | app/app.py:225-237 | Blank gives `NULL`. Only the two `Total_*` fields go through `int()`, and fail exactly when it raises; they get the integer it reads. A flag gets 1 for `true/t/1/yes`, 0 for `false/f/0/no`, and `NULL` for any other token. Every other field, `Patron_ID` included, gets the trimmed text. |
| SqlApp.Update | app/app.py:219-244 | The field name reaches the SQL text only when it is on the whitelist. The statement is keyed on `Patron_ID` alone. It is `SET field = NULL` exactly when the coerced value is null, and otherwise binds exactly the coerced value. A coercion failure is passed on unchanged. A whitelisted name whose value coerces always gives a statement. |
| SqlApp.Search | app/app.py:265-277 | IS NULL ignores the value. LIKE binds `%value%`. An exact search binds the value unchanged and untrimmed. |
| SqlApp.Delete | app/app.py:291-301 | The `SELECT` is always issued first. A missing id gives not-found, only the `SELECT`, and the same table. Otherwise the statements are exactly the `SELECT` followed by one `DELETE` for that id, and exactly that patron is removed. |
| Backends.ParseBoolsAgree | mongo/load_table_to_mongodb.py:8-16 | The two loaders' `parse_bool` accept the same words: 1/0 on one side, `True`/`False` on the other. |
| Backends.LoaderWordsAreAppTokens | mongo/app.py:215-222 | The dashboards read every loader flag word the same way. The dashboards also accept `yes` and similar tokens, which the loaders store as no value. |
| Backends.LoadersAgree | scripts/load_table_to_mysql.py:166-223 | Table column `k` is the document's value for the same field with booleans as 1/0. The one exception is an empty `Age_Range`: `NULL` in the table, `""` in the document. |
| Backends.CoercionsAgree | app/app.py:225-237 | On one field, the two Update coercions as written fail together with the same error. An unset corresponds to `NULL`, and a set value to the same value with booleans as 1/0. |
| Backends.AddsAgree | app/app.py:179-191 | Both Add tabs store the same patron: the same fields, with booleans as 1/0. |
| Backends.UpdatesAgree | app/app.py:225-244 | Both Update tabs, as written, refuse the same inputs with the same error. `$unset` corresponds to `SET field = NULL`, and `$set` to `SET field = %s` with booleans as 1/0. |

## Left out

- The Streamlit widgets, `st.rerun`/`st.stop`, the auto-refresh timer and all timing. The handlers are pure functions of the form's values.
- The MySQL and MongoDB drivers, the connection pool, commit and rollback. The back ends are an abstract store or the statements sent to it.
- SQL `LIKE` and Mongo `$regex` matching. Only the query values are built; the regex engine is a parameter of `MongoApp.Matches`.
- Logging, the log-file viewer, `argparse`/`getpass`, pandas, and CSV quoting. A file is the list of rows the `csv` reader yields.
- Text.ParseInt: does not accept the `_` digit separators or the non-ASCII decimal digits that Python's `int()` also accepts. It reads an optional sign and ASCII digits after stripping. It also reads numbers of any length, where Python 3.11 and later raise `ValueError` for a decimal text of more than 4300 digits; such a cell would be `None` in the loaders and a refused value in the dashboards.
- Text.Lower: lower-cases ASCII letters only. Every text it is compared with is an ASCII lower-case word, so the comparisons come out the same as with full Unicode case mapping.
- SqlApp.Insert: the id `AUTO_INCREMENT` picks is a parameter, constrained only to be fresh.
- SqlApp.Insert: the engine's refusals are not modelled. The schema declares `Patron_Type_Definition` and `Home_Library_Definition` `NOT NULL`, and four foreign keys to the lookup tables (scripts/load_table_to_mysql.py:92,100,112-119). An Add with a blank one of those fields, or with a code no lookup row holds, fails in the source but is inserted by the model.
- MongoApp.Add: the store keeps no separate `_id`. In the source `_id` stays fixed while `Patron_ID` can be unset, so `next_id` can equal a live `_id`. For example: load ids 1..5, then submit a blank value for patron 5's `Patron_ID`, which `$unset`s it (mongo/app.py:229). The largest `Patron_ID` is then 4, so `next_id` is 5 (164-165), and `insert_one` (184) fails on the duplicate `_id` 5. A `Patron_ID` changed to text makes the next Add fail earlier, at `last.get("Patron_ID", 0) + 1`, because the text sorts above every number. The model's Add always succeeds.
- PatronStore.UpdateKey: refuses a blank, non-integer or taken id and moves the record to the new key. The source `$set`s `Patron_ID` in place, or `$unset`s it for a blank value, and a text `Patron_ID` then breaks `last.get("Patron_ID", 0) + 1` in the next Add (mongo/app.py:164-165). None of those three outcomes is modelled.
- PatronStore.NextId: the source asks the collection for the document with the largest `Patron_ID`. The model takes the largest key of the store, which is the same when every `Patron_ID` is an integer. Mixed-type ids are not modelled.
- MongoApp.Update: a change of `Patron_ID` moves the record to a new key, and fails when the new id is held by another patron or is not an integer. The collection itself would keep both documents under one `Patron_ID`, or a document with a text id. A map keyed by id cannot hold either.
- SqlApp.Update: the engine's conversion of a text `Patron_ID` into an integer column, and its duplicate-key error, are not modelled. Only the statement is built.
- Documents whose `Patron_ID` appears more than once, for which `update_one` and `delete_one` touch only the first match.
- The Add tabs' number inputs hold integers (`Option<int>`). Streamlit's float values are not modelled.
- The document loader's final `insert_many`, which refuses an empty list. The model returns the documents to insert.

## Findings

| source | as written | input that shows it | evidently intended | confidence | as-written member | corrected member |
|---|---|---|---|---|---|---|
| mongo/app.py:212-213 | The Update tab passes only `Total_Checkouts` and `Total_Renewals` through `int()`, although `INT_FIELDS` also lists `Patron_ID`. A new `Patron_ID` is therefore stored as text. | field `Patron_ID`, new value `7`: stores `"7"`, and then the exact Search for `7` builds `{Patron_ID: 7}` and does not find the patron | every `INT_FIELDS` member goes through `int()`, as Search does, so that an updated value can be found again | not executed | MongoApp.PatronIdUpdateUnsearchable | MongoApp.UpdateThenSearch |

=== FILE: backends.dfy ===
/** How the two back ends agree: the same CSV row, form or update input
    leads to the same stored values, with booleans as 1/0 on the relational
    side. */
module Backends {
  import opened Common
  import opened Text
  import opened Fields
  import opened CsvRows
  import opened Coerce
  import opened PatronStore
  import MysqlLoader
  import MongoLoader
  import MongoApp
  import SqlApp

  /** The two loaders' `parse_bool` accept the same words; one answers 1/0,
      the other `True`/`False`. */
  lemma ParseBoolsAgree(value: Option<string>)
    ensures MysqlLoader.ParseBool(value).None? <==> MongoLoader.ParseBool(value).None?
    ensures MongoLoader.ParseBool(value).Some? ==>
              MysqlLoader.ParseBool(value) == Some(if MongoLoader.ParseBool(value).value then 1 else 0)
  {
  }

  /** Every word the loaders read as a boolean, the dashboards read the same
      way; the dashboards also accept `t`/`1`/`yes` and `f`/`0`/`no`, which
      the loaders store as no value. */
  lemma LoaderWordsAreAppTokens(s: string)
    ensures MongoLoader.ParseBool(Some(s)).Some? ==>
              BoolToken(Lower(Strip(s))) == MongoLoader.ParseBool(Some(s))
    ensures MongoLoader.ParseBool(Some("yes")).None? && BoolToken("yes") == Some(true)
  {
    assert Trimmed("yes");
    StripTrimmed("yes");
    assert Lower("yes") == "yes";
  }

  /** Column `k` of a `PATRONS` row is the document's value for the same
      field, booleans as 1/0, except that an empty `Age_Range` is `NULL` in
      the table and `""` in the document. */
  lemma LoadersAgree(id: int, data: Row, k: nat)
    requires k < |Columns|
    ensures var f := Columns[k];
            MysqlLoader.ColumnValue(data, k)
              == if f == AgeRange && Cell(data, k) == "" then Null
                 else ToSql(MongoLoader.DocValue(id, data, f))
  {
    var f := Columns[k];
    assert Id !in Columns && PatronId !in Columns;
    ColumnOfIndexes(f);
    ColumnsDistinct(ColumnOf(f), k);
    if f in {ProvidedEmailAddress, WithinSanFranciscoCounty} {
      FlagsAgree(id, data, k);
    } else if f in {TotalCheckouts, TotalRenewals} {
    } else if f != AgeRange {
      TextColumnsAgree(id, data, k);
    }
  }

  lemma FlagsAgree(id: int, data: Row, k: nat)
    requires k < |Columns| && Columns[k] in {ProvidedEmailAddress, WithinSanFranciscoCounty}
    requires ColumnOf(Columns[k]) == k
    ensures MysqlLoader.ColumnValue(data, k) == ToSql(MongoLoader.DocValue(id, data, Columns[k]))
  {
    ParseBoolsAgree(Some(Cell(data, k)));
  }

  lemma TextColumnsAgree(id: int, data: Row, k: nat)
    requires k < |Columns| && Columns[k] !in {Id, PatronId, AgeRange}
    requires Columns[k] !in {TotalCheckouts, TotalRenewals, ProvidedEmailAddress, WithinSanFranciscoCounty}
    requires ColumnOf(Columns[k]) == k
    ensures MysqlLoader.ColumnValue(data, k) == ToSql(MongoLoader.DocValue(id, data, Columns[k]))
  {
    assert Columns[k] in MongoLoader.TextKeys;
  }

  /** Both Add tabs store the same patron: the relational record is the
      document's record with booleans as 1/0. */
  lemma AddsAgree(form: AddForm)
    ensures SqlApp.InsertedRecord(form).Keys == MongoApp.NewRecord(form).Keys
    ensures forall f :: f in SqlApp.InsertedRecord(form) ==>
              SqlApp.InsertedRecord(form)[f] == ToSql(MongoApp.NewRecord(form)[f])
  {
    AddKeysAgree(form);
    AddValuesAgree(form);
  }

  lemma AddKeysAgree(form: AddForm)
    ensures SqlApp.InsertedRecord(form).Keys == MongoApp.NewRecord(form).Keys
  {
    var r := SqlApp.InsertedRecord(form);
    var d := MongoApp.NewRecord(form);
    forall f ensures f in r <==> f in d {
      AddColumnsAgree(f);
    }
  }

  lemma AddValuesAgree(form: AddForm)
    ensures forall f :: f in SqlApp.InsertedRecord(form) ==>
              f in MongoApp.NewRecord(form) &&
              SqlApp.InsertedRecord(form)[f] == ToSql(MongoApp.NewRecord(form)[f])
  {
    var r := SqlApp.InsertedRecord(form);
    var d := MongoApp.NewRecord(form);
    forall f | f in r ensures f in d && r[f] == ToSql(d[f]) {
      AddColumnsAgree(f);
      AddValueAgrees(form, f);
    }
  }

  lemma AddColumnsAgree(f: Field)
    ensures f in SqlApp.InsertColumns <==> f in MongoApp.AddFields
  {
    if f in MongoApp.AddFields {
      match f
      case PatronTypeDefinition => assert SqlApp.InsertColumns[0] == f;
      case TotalCheckouts => assert SqlApp.InsertColumns[1] == f;
      case TotalRenewals => assert SqlApp.InsertColumns[2] == f;
      case AgeRange => assert SqlApp.InsertColumns[3] == f;
      case HomeLibraryDefinition => assert SqlApp.InsertColumns[4] == f;
      case CirculationActiveMonth => assert SqlApp.InsertColumns[5] == f;
      case CirculationActiveYear => assert SqlApp.InsertColumns[6] == f;
      case NoticePreferenceDefinition => assert SqlApp.InsertColumns[7] == f;
      case ProvidedEmailAddress => assert SqlApp.InsertColumns[8] == f;
      case YearPatronRegistered => assert SqlApp.InsertColumns[9] == f;
      case WithinSanFranciscoCounty => assert SqlApp.InsertColumns[10] == f;
    }
  }

  lemma AddValueAgrees(form: AddForm, f: Field)
    requires f in SqlApp.InsertColumns && f in MongoApp.AddFields
    ensures SqlApp.ParamValue(form, f) == ToSql(MongoApp.AddValue(form, f))
  {
  }

  /** Both Update tabs, as written, turn the same input into the same
      change: a `$unset` is `SET field = NULL`, a `$set` is `SET field = %s`
      with booleans as 1/0, and both refuse the same inputs. */
  lemma UpdatesAgree(name: string, input: string, id: int)
    ensures SqlApp.Update(name, input, id).Failure? <==> MongoApp.UpdateChangeAsWritten(name, input).Failure?
    ensures SqlApp.Update(name, input, id).Failure? ==>
              SqlApp.Update(name, input, id).error == MongoApp.UpdateChangeAsWritten(name, input).error
    ensures MongoApp.UpdateChangeAsWritten(name, input).Success? ==>
              var (f, c) := MongoApp.UpdateChangeAsWritten(name, input).value;
              SqlApp.Update(name, input, id)
                == Success(match c
                           case Unset => SqlApp.SetNull(f, id)
                           case Set(v) => SqlApp.SetParam(f, ToSql(v), id))
  {
    match AllowedField(name)
    case None =>
    case Some(f) => CoercionsAgree(f, input);
  }

  /** The two Update coercions, as written, on one field. */
  lemma CoercionsAgree(f: Field, input: string)
    ensures SqlApp.UpdateValue(f, input).Failure? <==> MongoApp.Coerced(f, input, {TotalCheckouts, TotalRenewals}).Failure?
    ensures SqlApp.UpdateValue(f, input).Failure? ==>
              SqlApp.UpdateValue(f, input).error == MongoApp.Coerced(f, input, {TotalCheckouts, TotalRenewals}).error
    ensures MongoApp.Coerced(f, input, {TotalCheckouts, TotalRenewals}).Success? ==>
              SqlApp.UpdateValue(f, input)
                == Success(match MongoApp.Coerced(f, input, {TotalCheckouts, TotalRenewals}).value
                           case Unset => None
                           case Set(v) => Some(ToSql(v)))
  {
  }
}

=== FILE: coerce.dfy ===
/** The input handling the two dashboards share: blank means `NULL`, the
    truthy and falsy token tables, `text or None`, and the Add form. */
module Coerce {
  import opened Common
  import opened Text
  import opened Fields

  /** `None if s.strip() == "" else s.strip()`: a whitespace-only input
      means no value; any other input is kept trimmed. */
  function NullIfBlank(input: string): (r: Option<string>)
    ensures r.None? <==> AllSpace(input)
    ensures r.Some? ==> r.value != "" && Trimmed(r.value) && r.value == Strip(input)
    ensures r.Some? ==> WhitespaceAround(input, r.value)
  {
    StripFacts(input);
    var t := Strip(input);
    if t == "" then None
    else
      StripSplit(input);
      Some(t)
  }

  /** The tokens both Update tabs (and the document Search tab) read as
      true and as false, after lower-casing. */
  const TrueTokens: seq<string> := ["true", "t", "1", "yes"]
  const FalseTokens: seq<string> := ["false", "f", "0", "no"]

  /** The boolean a lower-cased token stands for, if any. */
  function BoolToken(v: string): (r: Option<bool>)
    ensures r == Some(true) <==> v in TrueTokens
    ensures r == Some(false) <==> v in FalseTokens
    ensures r.None? <==> v !in TrueTokens && v !in FalseTokens
  {
    if v in TrueTokens then Some(true)
    else if v in FalseTokens then Some(false)
    else None
  }

  /** `text or None`: an empty text input becomes `NULL`; any other text,
      whitespace included, is kept as typed. */
  function OrNull(text: string): (v: Value)
    ensures v.Null? <==> text == ""
    ensures v.Null? || v == Str(text)
  {
    if text == "" then Null else Str(text)
  }

  /** A nullable boolean from a toggle and its "set NULL" checkbox: the
      checkbox wins. */
  function NullableFlag(on: bool, setNull: bool): (r: Option<bool>)
    ensures r.None? <==> setNull
    ensures r.Some? ==> r.value == on
  {
    if setNull then None else Some(on)
  }

  /** What the Add tab's form holds when it is submitted. The two counts are
      number inputs, which may be empty. */
  datatype AddForm = AddForm(
    patronType: string,
    totalCheckouts: Option<int>,
    totalRenewals: Option<int>,
    ageRange: string,
    homeLibrary: string,
    circulationMonth: string,
    circulationYear: string,
    noticePreference: string,
    providedEmail: bool,
    providedEmailNull: bool,
    yearRegistered: string,
    sfCounty: bool,
    sfCountyNull: bool)

  function CountValue(n: Option<int>): (v: Value)
    ensures v.Null? <==> n.None?
    ensures n.Some? ==> v == Int(n.value)
  {
    match n
    case Some(k) => Int(k)
    case None => Null
  }

  /** Why an Update tab refuses an input: a field outside the whitelist, or
      a count that is not an integer (`int()` raises). */
  datatype UpdateError = InvalidField | NotAnInteger

  /** The two search modes of the Search tabs. */
  datatype Mode = Exact | Like
}

=== FILE: common.dfy ===
/** The optional value and the success-or-error result shared by every part
    of the model: Python's `None` becomes `None`, and a handler that reports
    an error through the UI (or raises and is caught) returns `Failure`. */
module Common {

  datatype Option<+T> = None | Some(value: T)

  datatype Result<+R, +E> = Success(value: R) | Failure(error: E)
}

=== FILE: csv_rows.dfy ===
/** The row handling the relational and the document loader share: which CSV
    lines become records, how a cell is read, and how a count column is
    turned into an integer. The CSV reader itself is not modelled: a file is
    the list of rows it yields, each a list of cells. */
module CsvRows {
  import opened Common
  import opened Text
  import opened Fields

  type Row = seq<string>

  /** The extract's fourteen data columns in file order, each named by the
      field it fills: cell `k` of a row holds field `Columns[k]`. It is also
      the order of the relational loader's `columns` list. */
  const Columns: seq<Field> := [
    PatronTypeCode, PatronTypeDefinition, TotalCheckouts, TotalRenewals,
    AgeRange, HomeLibraryCode, HomeLibraryDefinition, CirculationActiveMonth,
    CirculationActiveYear, NotificationPreferenceCode,
    NoticePreferenceDefinition, ProvidedEmailAddress,
    WithinSanFranciscoCounty, YearPatronRegistered
  ]

  /** The cell a field is read from; the two ids have none. */
  function ColumnOf(f: Field): (k: nat)
    requires f !in {Id, PatronId}
    ensures k < 14
  {
    match f
    case PatronTypeCode => 0
    case PatronTypeDefinition => 1
    case TotalCheckouts => 2
    case TotalRenewals => 3
    case AgeRange => 4
    case HomeLibraryCode => 5
    case HomeLibraryDefinition => 6
    case CirculationActiveMonth => 7
    case CirculationActiveYear => 8
    case NotificationPreferenceCode => 9
    case NoticePreferenceDefinition => 10
    case ProvidedEmailAddress => 11
    case WithinSanFranciscoCounty => 12
    case YearPatronRegistered => 13
  }

  /** `ColumnOf` inverts `Columns`. */
  lemma ColumnOfIndexes(f: Field)
    requires f !in {Id, PatronId}
    ensures ColumnOf(f) < |Columns| && Columns[ColumnOf(f)] == f
  {
  }

  /** Each field has one column: the columns are pairwise distinct. */
  lemma ColumnsDistinct(i: nat, j: nat)
    requires i < |Columns| && j < |Columns| && Columns[i] == Columns[j]
    ensures i == j
  {
  }

  /** The loaders' `g(i)`: the trimmed cell `i`, or `""` past the end of a
      short row. */
  function Cell(data: Row, i: nat): (c: string)
    ensures |data| <= i ==> c == ""
    ensures i < |data| ==> |c| <= |data[i]| && Trimmed(c)
    ensures i < |data| ==> (c == "" <==> AllSpace(data[i]))
    ensures i < |data| ==> WhitespaceAround(data[i], c)
  {
    if i < |data| then
      StripFacts(data[i]);
      StripSplit(data[i]);
      Strip(data[i])
    else ""
  }

  /** A short row reads as if it had been padded with empty cells. */
  lemma CellPadded(data: Row, n: nat, i: nat)
    ensures Cell(data + seq(n, _ => ""), i) == Cell(data, i)
  {
    var padded := data + seq(n, _ => "");
    if i < |data| {
      assert padded[i] == data[i];
    } else if i < |padded| {
      assert padded[i] == "";
    }
  }

  /** The loop's skip test: a row with no cells, or whose every cell is
      whitespace. */
  predicate IsBlankRow(data: Row) {
    forall k :: 0 <= k < |data| ==> Strip(data[k]) == ""
  }

  /** A row is skipped exactly when every cell `g` can read from it is empty. */
  lemma BlankRowHasNoCells(data: Row)
    ensures IsBlankRow(data) <==> forall i: nat :: Cell(data, i) == ""
  {
    if !IsBlankRow(data) {
      var k :| 0 <= k < |data| && Strip(data[k]) != "";
      assert Cell(data, k) != "";
    }
  }

  /** The data rows: the reader's first two rows, the title and the header,
      are consumed before the loop (fewer than two rows leave nothing). */
  function Body(lines: seq<Row>): (body: seq<Row>)
    ensures |lines| >= 2 ==> lines == lines[..2] + body
    ensures |lines| < 2 ==> body == []
  {
    if |lines| < 2 then [] else lines[2..]
  }

  /** The rows that reach the output: every non-blank row, in order. */
  function Kept(rows: seq<Row>): (kept: seq<Row>)
    ensures |kept| <= |rows|
  {
    if |rows| == 0 then []
    else
      var last := rows[|rows| - 1];
      Kept(rows[..|rows| - 1]) + (if IsBlankRow(last) then [] else [last])
  }

  /** Reading one more row keeps it exactly when it is not blank. */
  lemma KeptSnoc(rows: seq<Row>, r: Row)
    ensures Kept(rows + [r]) == Kept(rows) + (if IsBlankRow(r) then [] else [r])
  {
    assert (rows + [r])[..|rows|] == rows;
  }

  /** The rows read so far, one step further on. */
  lemma ReadOneMore(rows: seq<Row>, i: nat)
    requires i < |rows|
    ensures rows[..i + 1] == rows[..i] + [rows[i]]
  {
  }

  /** The kept rows are exactly the non-blank rows. */
  lemma {:induction false} KeptMembers(rows: seq<Row>)
    ensures forall r :: r in Kept(rows) ==> r in rows && !IsBlankRow(r)
    ensures forall r :: r in rows && !IsBlankRow(r) ==> r in Kept(rows)
    decreases |rows|
  {
    if |rows| > 0 {
      var init := rows[..|rows| - 1];
      KeptMembers(init);
      assert rows == init + [rows[|rows| - 1]];
    }
  }

  /** Filtering works row by row: the kept rows of a concatenation are the
      kept rows of each part, one after the other, so the output keeps the
      order of the file. */
  lemma {:induction false} KeptAppend(a: seq<Row>, b: seq<Row>)
    ensures Kept(a + b) == Kept(a) + Kept(b)
    decreases |b|
  {
    if |b| == 0 {
      assert a + b == a;
    } else {
      var init := b[..|b| - 1];
      assert (a + b)[..|a + b| - 1] == a + init;
      KeptAppend(a, init);
    }
  }

  /** A count column (`Total_Checkouts`, `Total_Renewals`): `NULL` when the
      cell is empty or not an integer, otherwise the integer. */
  function IntCell(data: Row, i: nat): (v: Value)
    ensures v.Null? || v.Int?
    ensures v.Int? ==> Cell(data, i) != "" && ParseInt(Cell(data, i)) == Some(v.i)
    ensures v.Null? <==> ParseInt(Cell(data, i)).None?
  {
    var c := Cell(data, i);
    if c == "" then Null
    else
      match ParseInt(c)
      case Some(n) => Int(n)
      case None => Null
  }

  /** A count written out in decimal is read back as that count. */
  lemma IntCellShow(data: Row, i: nat, n: int)
    requires i < |data| && data[i] == ShowInt(n)
    ensures IntCell(data, i) == Int(n)
  {
    ParseShowInt(n);
    assert Trimmed(data[i]) by {
      assert !IsSpace(data[i][0]);
      assert !IsSpace(data[i][|data[i]| - 1]);
    }
    StripTrimmed(data[i]);
  }
}

=== FILE: fields.dfy ===
/** The patron record's fields, their column/key names, the field classes
    both dashboards validate against, and the values a field can hold. */
module Fields {
  import opened Common

  /** Every key a patron document can carry: `_id`, `Patron_ID` and the
      fourteen columns of the CSV extract. */
  datatype Field =
    | Id
    | PatronId
    | PatronTypeCode
    | PatronTypeDefinition
    | TotalCheckouts
    | TotalRenewals
    | AgeRange
    | HomeLibraryCode
    | HomeLibraryDefinition
    | CirculationActiveMonth
    | CirculationActiveYear
    | NotificationPreferenceCode
    | NoticePreferenceDefinition
    | ProvidedEmailAddress
    | WithinSanFranciscoCounty
    | YearPatronRegistered

  /** The column name (or document key) of a field. */
  function Name(f: Field): string {
    match f
    case Id => "_id"
    case PatronId => "Patron_ID"
    case PatronTypeCode => "Patron_Type_Code"
    case PatronTypeDefinition => "Patron_Type_Definition"
    case TotalCheckouts => "Total_Checkouts"
    case TotalRenewals => "Total_Renewals"
    case AgeRange => "Age_Range"
    case HomeLibraryCode => "Home_Library_Code"
    case HomeLibraryDefinition => "Home_Library_Definition"
    case CirculationActiveMonth => "Circulation_Active_Month"
    case CirculationActiveYear => "Circulation_Active_Year"
    case NotificationPreferenceCode => "Notification_Preference_Code"
    case NoticePreferenceDefinition => "Notice_Preference_Definition"
    case ProvidedEmailAddress => "Provided_Email_Address"
    case WithinSanFranciscoCounty => "Within_San_Francisco_County"
    case YearPatronRegistered => "Year_Patron_Registered"
  }

  /** Every field, in document order. */
  const AllFields: seq<Field> := [
    Id, PatronId, PatronTypeCode, PatronTypeDefinition, TotalCheckouts,
    TotalRenewals, AgeRange, HomeLibraryCode, HomeLibraryDefinition,
    CirculationActiveMonth, CirculationActiveYear, NotificationPreferenceCode,
    NoticePreferenceDefinition, ProvidedEmailAddress, WithinSanFranciscoCounty,
    YearPatronRegistered
  ]

  /** The first field of `fs` with the given name, if any. */
  function Lookup(name: string, fs: seq<Field>): (r: Option<Field>)
    ensures r.Some? ==> r.value in fs && Name(r.value) == name
    ensures r.None? ==> forall i :: 0 <= i < |fs| ==> Name(fs[i]) != name
  {
    if |fs| == 0 then None
    else if Name(fs[0]) == name then Some(fs[0])
    else Lookup(name, fs[1..])
  }

  /** `ALLOWED_FIELDS`: the fields the Update and Search tabs offer, in the
      order of their select boxes. */
  const AllowedFields: seq<Field> := [
    PatronId, PatronTypeDefinition, TotalCheckouts, TotalRenewals,
    AgeRange, HomeLibraryDefinition, CirculationActiveMonth,
    CirculationActiveYear, NoticePreferenceDefinition,
    ProvidedEmailAddress, YearPatronRegistered,
    WithinSanFranciscoCounty
  ]

  /** `INT_FIELDS`, `BOOL_FIELDS` and `STRING_FIELDS` of the document
      dashboard. */
  const IntFields: set<Field> := {PatronId, TotalCheckouts, TotalRenewals}
  const BoolFields: set<Field> := {ProvidedEmailAddress, WithinSanFranciscoCounty}
  const StringFields: set<Field> := {
    PatronTypeDefinition, AgeRange, HomeLibraryDefinition,
    CirculationActiveMonth, CirculationActiveYear,
    NoticePreferenceDefinition, YearPatronRegistered
  }

  /** The field a name from the Update tab denotes, when that name is on the
      whitelist; the whitelist is the only way a name reaches a query. */
  function AllowedField(name: string): (r: Option<Field>)
    ensures r.Some? <==> exists f :: f in AllowedFields && Name(f) == name
    ensures r.Some? ==> r.value in AllowedFields && Name(r.value) == name
  {
    Lookup(name, AllowedFields)
  }

  /** The three field classes are pairwise disjoint and together make up
      exactly the whitelist, so every allowed field has exactly one class. */
  lemma FieldClassesPartitionAllowed()
    ensures IntFields !! BoolFields && IntFields !! StringFields && BoolFields !! StringFields
    ensures forall f :: f in AllowedFields <==> f in IntFields + BoolFields + StringFields
  {
    forall f ensures f in AllowedFields <==> f in IntFields + BoolFields + StringFields {
      ClassOfAllowed(f);
    }
  }

  lemma ClassOfAllowed(f: Field)
    ensures f in AllowedFields <==> f in IntFields + BoolFields + StringFields
  {
    match f
    case PatronId => assert AllowedFields[0] == f;
    case PatronTypeDefinition => assert AllowedFields[1] == f;
    case TotalCheckouts => assert AllowedFields[2] == f;
    case TotalRenewals => assert AllowedFields[3] == f;
    case AgeRange => assert AllowedFields[4] == f;
    case HomeLibraryDefinition => assert AllowedFields[5] == f;
    case CirculationActiveMonth => assert AllowedFields[6] == f;
    case CirculationActiveYear => assert AllowedFields[7] == f;
    case NoticePreferenceDefinition => assert AllowedFields[8] == f;
    case ProvidedEmailAddress => assert AllowedFields[9] == f;
    case YearPatronRegistered => assert AllowedFields[10] == f;
    case WithinSanFranciscoCounty => assert AllowedFields[11] == f;
    case _ => {}
  }

  /** A cell of a row or a value of a document field: SQL `NULL` / Python
      `None`, a text, an integer or a boolean. */
  datatype Value = Null | Str(s: string) | Int(i: int) | Bool(b: bool)

  /** A patron document (or row): the value of each field it carries. */
  type Doc = map<Field, Value>

  /** Every field is listed in `AllFields`. */
  lemma AllFieldsComplete(f: Field)
    ensures f in AllFields
  {
    match f
    case Id => assert AllFields[0] == f;
    case _ => {}
  }

  /** How the relational store holds a value: booleans are `1` or `0`. */
  function ToSql(v: Value): (r: Value)
    ensures !r.Bool?
    ensures v.Bool? ==> r == Int(if v.b then 1 else 0)
    ensures !v.Bool? ==> r == v
  {
    match v
    case Bool(b) => Int(if b then 1 else 0)
    case _ => v
  }
}

=== FILE: mongo_app.dfy ===
/** The document dashboard's handlers: Add builds a document under
    `next_id`, Update coerces one input and sets or unsets one field, Search
    builds a filter document, Delete checks before it deletes. */
module MongoApp {
  import opened Common
  import opened Text
  import opened Fields
  import opened Coerce
  import opened PatronStore

  /** The fields the Add tab fills: every descriptive field except the
      three codes. */
  const AddFields: set<Field> := {
    PatronTypeDefinition, TotalCheckouts, TotalRenewals, AgeRange,
    HomeLibraryDefinition, CirculationActiveMonth, CirculationActiveYear,
    NoticePreferenceDefinition, ProvidedEmailAddress, YearPatronRegistered,
    WithinSanFranciscoCounty
  }

  function FlagValue(r: Option<bool>): (v: Value)
    ensures v.Null? <==> r.None?
    ensures r.Some? ==> v == Bool(r.value)
  {
    match r
    case Some(b) => Bool(b)
    case None => Null
  }

  /** The value the Add tab gives field `f`: empty texts become `None`,
      each flag is `None` when its box is ticked and the toggle otherwise. */
  function AddValue(form: AddForm, f: Field): Value
    requires f in AddFields
  {
    match f
    case PatronTypeDefinition => OrNull(form.patronType)
    case TotalCheckouts => CountValue(form.totalCheckouts)
    case TotalRenewals => CountValue(form.totalRenewals)
    case AgeRange => OrNull(form.ageRange)
    case HomeLibraryDefinition => OrNull(form.homeLibrary)
    case CirculationActiveMonth => OrNull(form.circulationMonth)
    case CirculationActiveYear => OrNull(form.circulationYear)
    case NoticePreferenceDefinition => OrNull(form.noticePreference)
    case ProvidedEmailAddress => FlagValue(NullableFlag(form.providedEmail, form.providedEmailNull))
    case YearPatronRegistered => OrNull(form.yearRegistered)
    case WithinSanFranciscoCounty => FlagValue(NullableFlag(form.sfCounty, form.sfCountyNull))
  }

  /** The new document's fields besides `_id` and `Patron_ID`. */
  function NewRecord(form: AddForm): (r: Record)
    ensures r.Keys == AddFields
    ensures ValidRecord(r)
    ensures forall f :: f in r ==> r[f] == AddValue(form, f)
  {
    map f | f in AddFields :: AddValue(form, f)
  }

  /** Only the text fields can be `None` because of an empty input, the
      counts only for an empty number input, the flags only through their
      checkbox. */
  lemma NewRecordNulls(form: AddForm, f: Field)
    requires f in AddFields
    ensures NewRecord(form)[f].Null? <==>
              match f
              case TotalCheckouts => form.totalCheckouts.None?
              case TotalRenewals => form.totalRenewals.None?
              case ProvidedEmailAddress => form.providedEmailNull
              case WithinSanFranciscoCounty => form.sfCountyNull
              case PatronTypeDefinition => form.patronType == ""
              case AgeRange => form.ageRange == ""
              case HomeLibraryDefinition => form.homeLibrary == ""
              case CirculationActiveMonth => form.circulationMonth == ""
              case CirculationActiveYear => form.circulationYear == ""
              case NoticePreferenceDefinition => form.noticePreference == ""
              case YearPatronRegistered => form.yearRegistered == ""
              case _ => false
    ensures NewRecord(form)[f].Bool? ==> f in BoolFields
  {
  }

  /** The Add tab: the new patron gets `next_id` as both `_id` and
      `Patron_ID`, an id no patron has and larger than every id. */
  method Add(s: Store, form: AddForm) returns (id: int, t: Store)
    requires Valid(s)
    ensures id !in s && forall k :: k in s ==> k < id
    ensures t == Insert(s, id, NewRecord(form))
    ensures Valid(t)
  {
    id := NextId(s);
    t := Insert(s, id, NewRecord(form));
    InsertKeepsValid(s, id, NewRecord(form));
  }

  /** The Update tab's coercion of the new value for field `f`, with
      `ints` the fields that go through `int()`: blank unsets; a flag reads
      the token tables and an unknown token unsets; any other field is set to
      the trimmed text. */
  function Coerced(f: Field, input: string, ints: set<Field>): (r: Result<Change, UpdateError>)
    ensures r.Failure? <==> f in ints && !AllSpace(input) && ParseInt(Strip(input)).None?
    ensures r.Failure? ==> r.error == NotAnInteger
    ensures r == Success(Unset) <==>
              AllSpace(input) || (f !in ints && f in BoolFields && BoolToken(Lower(Strip(input))).None?)
    ensures !AllSpace(input) && f in ints && ParseInt(Strip(input)).Some? ==>
              r == Success(Set(Int(ParseInt(Strip(input)).value)))
    ensures !AllSpace(input) && f !in ints && f in BoolFields && Lower(Strip(input)) in TrueTokens ==>
              r == Success(Set(Bool(true)))
    ensures !AllSpace(input) && f !in ints && f in BoolFields && Lower(Strip(input)) in FalseTokens ==>
              r == Success(Set(Bool(false)))
    ensures !AllSpace(input) && f !in ints && f !in BoolFields ==> r == Success(Set(Str(Strip(input))))
  {
    match NullIfBlank(input)
    case None => Success(Unset)
    case Some(text) =>
      if f in ints then
        match ParseInt(text)
        case Some(n) => Success(Set(Int(n)))
        case None => Failure(NotAnInteger)
      else if f in BoolFields then
        match BoolToken(Lower(text))
        case Some(b) => Success(Set(Bool(b)))
        case None => Success(Unset)
      else Success(Set(Str(text)))
  }

  /** The Update tab's whitelist check and coercion, as the code is written:
      only `Total_Checkouts` and `Total_Renewals` go through `int()`, so
      `Patron_ID` is set to text. The change is `Coerced`'s, whose
      contract and `CoercedWrites` spell out the value written. */
  function UpdateChangeAsWritten(name: string, input: string): (r: Result<(Field, Change), UpdateError>)
    ensures r.Success? ==> r.value.0 in AllowedFields && Name(r.value.0) == name
    ensures AllowedField(name).None? <==> r == Failure(InvalidField)
    ensures r.Success? ==> Coerced(r.value.0, input, {TotalCheckouts, TotalRenewals}) == Success(r.value.1)
    ensures r.Success? && r.value.0 == PatronId && !AllSpace(input) ==> r.value.1 == Set(Str(Strip(input)))
    ensures r == Failure(NotAnInteger) <==>
              && AllowedField(name).Some? && AllowedField(name).value in {TotalCheckouts, TotalRenewals}
              && !AllSpace(input) && ParseInt(Strip(input)).None?
  {
    match AllowedField(name)
    case None => Failure(InvalidField)
    case Some(f) =>
      match Coerced(f, input, {TotalCheckouts, TotalRenewals})
      case Success(c) => Success((f, c))
      case Failure(e) => Failure(e)
  }

  /** The same with every field of `INT_FIELDS` going through `int()`, as
      the field classes intend; this is the coercion the rest of the model
      uses. The change is `Coerced`'s. */
  function UpdateChange(name: string, input: string): (r: Result<(Field, Change), UpdateError>)
    ensures r.Success? ==> r.value.0 in AllowedFields && Name(r.value.0) == name
    ensures AllowedField(name).None? <==> r == Failure(InvalidField)
    ensures r.Success? ==> r.value.0 != Id
    ensures r.Success? ==> Coerced(r.value.0, input, IntFields) == Success(r.value.1)
    ensures r == Failure(NotAnInteger) <==>
              && AllowedField(name).Some? && AllowedField(name).value in IntFields
              && !AllSpace(input) && ParseInt(Strip(input)).None?
  {
    match AllowedField(name)
    case None => Failure(InvalidField)
    case Some(f) =>
      match Coerced(f, input, IntFields)
      case Success(c) => Success((f, c))
      case Failure(e) => Failure(e)
  }

  /** A successful coercion, read back class by class. */
  lemma CoercedWrites(f: Field, input: string, ints: set<Field>, c: Change)
    requires Coerced(f, input, ints) == Success(c)
    requires ints !! BoolFields
    ensures AllSpace(input) ==> c == Unset
    ensures !AllSpace(input) && f in ints ==>
              c.Set? && c.value.Int? && ParseInt(Strip(input)) == Some(c.value.i)
    ensures !AllSpace(input) && f in BoolFields ==>
              && (c == Set(Bool(true)) <==> Lower(Strip(input)) in TrueTokens)
              && (c == Set(Bool(false)) <==> Lower(Strip(input)) in FalseTokens)
              && (c == Unset <==> BoolToken(Lower(Strip(input))).None?)
    ensures !AllSpace(input) && f !in ints && f !in BoolFields ==> c == Set(Str(Strip(input)))
  {
    if !AllSpace(input) && f in BoolFields {
      assert f !in ints;
      var t := Lower(Strip(input));
      assert BoolToken(t).Some? ==> c == Set(Bool(BoolToken(t).value));
    }
  }

  /** The two coercions differ only on `Patron_ID`. */
  lemma UpdateChangeOnlyPatronIdDiffers(name: string, input: string)
    requires name != Name(PatronId)
    ensures UpdateChangeAsWritten(name, input) == UpdateChange(name, input)
  {
    match AllowedField(name)
    case None =>
    case Some(f) =>
      assert f != PatronId;
      assert (f in IntFields) == (f in {TotalCheckouts, TotalRenewals});
  }

  /** A Mongo filter document. */
  datatype Query =
    | IsNull(field: Field)
    | Regex(field: Field, pattern: string)
    | Equals(field: Field, value: Value)

  /** Why the Search tab refuses a search. */
  datatype SearchError = LikeOnNonText | ValueNotInteger | ValueNotBoolean

  /** The Search tab's filter: `{field: None}` when IS NULL is ticked,
      whatever the value; a case-insensitive regex on the trimmed value for
      LIKE, text fields only; otherwise equality with the trimmed value,
      read as an integer for `INT_FIELDS` and as a token for `BOOL_FIELDS`. */
  function Search(f: Field, mode: Mode, nullSearch: bool, value: string): (r: Result<Query, SearchError>)
    ensures nullSearch ==> r == Success(IsNull(f))
    ensures r.Success? <==>
              || nullSearch
              || (mode == Like && f in StringFields)
              || (mode == Exact && (f in IntFields ==> ParseInt(Strip(value)).Some?)
                                && (f in BoolFields ==> BoolToken(Lower(Strip(value))).Some?))
    ensures r.Success? && !nullSearch ==> r.value.field == f && !r.value.IsNull?
    ensures !nullSearch && r.Success? && r.value.Equals? && r.value.value.Str? ==> r.value.value.s == Strip(value)
    ensures !nullSearch && mode == Like && r.Success? ==> r.value == Regex(f, Strip(value))
    ensures !nullSearch && mode == Exact && r.Success? && f in IntFields ==>
              r.value.Equals? && r.value.value.Int? && ParseInt(Strip(value)) == Some(r.value.value.i)
    ensures !nullSearch && mode == Exact && r.Success? && f in BoolFields ==>
              && (r.value == Equals(f, Bool(true)) <==> Lower(Strip(value)) in TrueTokens)
              && (r.value == Equals(f, Bool(false)) <==> Lower(Strip(value)) in FalseTokens)
    ensures !nullSearch && mode == Exact && f !in IntFields && f !in BoolFields ==>
              r == Success(Equals(f, Str(Strip(value))))
  {
    if nullSearch then Success(IsNull(f))
    else
      var raw := Strip(value);
      match mode
      case Like =>
        if f !in StringFields then Failure(LikeOnNonText)
        else Success(Regex(f, raw))
      case Exact =>
        if f in IntFields then
          match ParseInt(raw)
          case Some(n) => Success(Equals(f, Int(n)))
          case None => Failure(ValueNotInteger)
        else if f in BoolFields then
          match BoolToken(Lower(raw))
          case Some(b) => Success(Equals(f, Bool(b)))
          case None => Failure(ValueNotBoolean)
        else Success(Equals(f, Str(raw)))
  }

  /** Whether a document satisfies a filter. `{field: None}` also matches a
      document without the field; the regex engine is a parameter. */
  predicate Matches(doc: Doc, q: Query, regex: (string, string) -> bool) {
    match q
    case IsNull(f) => f !in doc || doc[f] == Null
    case Regex(f, p) => f in doc && doc[f].Str? && regex(p, doc[f].s)
    case Equals(f, v) => f in doc && doc[f] == v
  }

  /** What the Update tab writes, the exact Search with the same input
      finds: a set value matches the equality filter, an unset field matches
      the IS NULL filter. */
  lemma UpdateThenSearch(name: string, input: string, doc: Doc, regex: (string, string) -> bool)
    requires UpdateChange(name, input).Success?
    ensures var (f, c) := UpdateChange(name, input).value;
            match c
            case Set(v) =>
              Search(f, Exact, false, input) == Success(Equals(f, v))
              && Matches(Apply(doc, f, c), Equals(f, v), regex)
            case Unset =>
              Matches(Apply(doc, f, c), IsNull(f), regex)
  {
    var (f, c) := UpdateChange(name, input).value;
    StripIdempotent(input);
    if c.Set? {
      var text := Strip(input);
      StripFacts(input);
      assert Strip(text) == text;
    }
  }

  /** The Update tab as written stores `Patron_ID` as text: updating it to
      `7` sets the string `"7"`, while the exact search for `7` looks for
      the integer 7 and does not find the document. */
  lemma PatronIdUpdateUnsearchable(doc: Doc, regex: (string, string) -> bool)
    ensures UpdateChangeAsWritten("Patron_ID", "7") == Success((PatronId, Set(Str("7"))))
    ensures Search(PatronId, Exact, false, "7") == Success(Equals(PatronId, Int(7)))
    ensures !Matches(Apply(doc, PatronId, Set(Str("7"))), Equals(PatronId, Int(7)), regex)
  {
    assert AllowedField("Patron_ID") == Some(PatronId);
    assert Trimmed("7");
    StripTrimmed("7");
    assert ParseInt("7") == Some(7) by {
      assert AllDigits("7");
      assert DigitsValue("7") == DigitsValue("") * 10 + 7;
    }
  }

  /** Why the Update tab fails: the coercion refused the input, or the
      store refused the new `Patron_ID`. */
  datatype UpdateFailure = Rejected(UpdateError) | KeyFailed(KeyError)

  /** The Update tab on the store: whitelist and coercion first, then a
      set or unset of one descriptive field, or a change of `Patron_ID`. */
  function Update(s: Store, id: int, name: string, input: string): (r: Result<Store, UpdateFailure>)
    ensures r == Failure(Rejected(InvalidField)) <==> AllowedField(name).None?
    ensures r == Failure(Rejected(NotAnInteger)) <==> UpdateChange(name, input) == Failure(NotAnInteger)
    ensures forall f, c :: UpdateChange(name, input) == Success((f, c)) ==>
              if f == PatronId then (r.Success? <==> UpdateKey(s, id, c).Success?)
                                    && (r.Success? ==> r.value == UpdateKey(s, id, c).value)
              else r == Success(PatronStore.Update(s, id, f, c))
  {
    match UpdateChange(name, input)
    case Failure(e) => Failure(Rejected(e))
    case Success((f, c)) =>
      if f == PatronId then
        match UpdateKey(s, id, c)
        case Success(t) => Success(t)
        case Failure(e) => Failure(KeyFailed(e))
      else Success(PatronStore.Update(s, id, f, c))
  }

  /** The calls the Delete tab makes on the collection, both filtered on
      `Patron_ID`. */
  datatype DeleteCall = FindOne(id: int) | DeleteOne(id: int)

  /** The Delete tab: `find_one` first, `delete_one` only when it found the
      patron. */
  function DeletePatron(s: Store, id: int): (r: (Outcome, seq<DeleteCall>, Store))
    ensures r.0 == NotFound <==> id !in s
    ensures |r.1| > 0 && r.1[0] == FindOne(id)
    ensures DeleteOne(id) in r.1 <==> id in s
    ensures r.0 == NotFound ==> r.1 == [FindOne(id)] && r.2 == s
    ensures r.0 == Deleted ==> r.1 == [FindOne(id), DeleteOne(id)] && r.2 == s - {id}
  {
    var (outcome, t) := PatronStore.Delete(s, id);
    if outcome == NotFound then (outcome, [FindOne(id)], t)
    else (outcome, [FindOne(id), DeleteOne(id)], t)
  }
}

=== FILE: mongo_loader.dfy ===
/** The document batch loader: each kept CSV row becomes one document with
    all sixteen keys, numbered 1, 2, ... in file order. */
module MongoLoader {
  import opened Common
  import opened Text
  import opened Fields
  import opened CsvRows
  import opened PatronStore

  /** The loader's `parse_bool`: `True` for `true`, `False` for `false`
      (after trimming and lower-casing), `None` for anything else and for no
      value. */
  function ParseBool(value: Option<string>): (r: Option<bool>)
    ensures r == Some(true) <==> value.Some? && Lower(Strip(value.value)) == "true"
    ensures r == Some(false) <==> value.Some? && Lower(Strip(value.value)) == "false"
    ensures r.None? <==> value.None? || Lower(Strip(value.value)) !in {"true", "false"}
  {
    match value
    case None => None
    case Some(text) =>
      var v := Lower(Strip(text));
      if v == "true" then Some(true)
      else if v == "false" then Some(false)
      else None
  }

  /** A flag column: `None` unless the cell reads as `true` or `false`. */
  function FlagCell(data: Row, i: nat): (v: Value)
    ensures v.Null? || v.Bool?
    ensures v.Null? <==> Lower(Strip(Cell(data, i))) !in {"true", "false"}
    ensures v.Bool? ==> (v.b <==> Lower(Strip(Cell(data, i))) == "true")
  {
    match ParseBool(Some(Cell(data, i)))
    case Some(b) => Bool(b)
    case None => Null
  }

  /** The text keys: every key but the two ids, the two counts and the two
      flags. */
  const TextKeys: set<Field> := {
    PatronTypeCode, PatronTypeDefinition, AgeRange, HomeLibraryCode,
    HomeLibraryDefinition, CirculationActiveMonth, CirculationActiveYear,
    NotificationPreferenceCode, NoticePreferenceDefinition, YearPatronRegistered
  }

  /** The value key `f` gets in the document numbered `id` built from CSV
      row `data`. Text keys are never `None`: they hold the trimmed cell, `""`
      for an empty or missing cell (so `Age_Range` keeps `""`, unlike the
      relational loader); counts are `None` exactly when the cell does not
      parse; flags are `None` exactly when the cell is neither `true` nor
      `false`. */
  function DocValue(id: int, data: Row, f: Field): (v: Value)
    ensures f in {Id, PatronId} ==> v == Int(id)
    ensures f in TextKeys ==> v == Str(Cell(data, ColumnOf(f)))
    ensures f in {TotalCheckouts, TotalRenewals} ==> v == IntCell(data, ColumnOf(f))
    ensures f in {ProvidedEmailAddress, WithinSanFranciscoCounty} ==> v == FlagCell(data, ColumnOf(f))
  {
    match f
    case Id => Int(id)
    case PatronId => Int(id)
    case TotalCheckouts => IntCell(data, 2)
    case TotalRenewals => IntCell(data, 3)
    case ProvidedEmailAddress => FlagCell(data, 11)
    case WithinSanFranciscoCounty => FlagCell(data, 12)
    case _ => Str(Cell(data, ColumnOf(f)))
  }

  /** The document built from one kept row: all sixteen keys, whatever the
      row's length. */
  function Document(id: int, data: Row): (doc: Doc)
    ensures forall f :: f in doc && doc[f] == DocValue(id, data, f)
  {
    forall f ensures f in AllFields { AllFieldsComplete(f); }
    map f | f in AllFields :: DocValue(id, data, f)
  }

  /** A document does not depend on how many empty cells pad its row. */
  lemma DocumentPadded(id: int, data: Row, n: nat)
    ensures Document(id, data + seq(n, _ => "")) == Document(id, data)
  {
    var padded := data + seq(n, _ => "");
    forall i: nat ensures Cell(padded, i) == Cell(data, i) {
      CellPadded(data, n, i);
    }
    assert forall f :: DocValue(id, padded, f) == DocValue(id, data, f);
  }

  /** The documents of the kept rows, numbered from 1 in file order. */
  function Documents(kept: seq<Row>): (docs: seq<Doc>)
    ensures |docs| == |kept|
  {
    if |kept| == 0 then []
    else Documents(kept[..|kept| - 1]) + [Document(|kept|, kept[|kept| - 1])]
  }

  /** Reading one more row after `docs` adds its document, numbered after
      the others, unless the row is blank. */
  lemma ReadStep(read: seq<Row>, data: Row, docs: seq<Doc>)
    requires docs == Documents(Kept(read))
    ensures Documents(Kept(read + [data]))
         == if IsBlankRow(data) then docs else docs + [Document(|docs| + 1, data)]
  {
    var kept := Kept(read);
    KeptSnoc(read, data);
    if IsBlankRow(data) {
      assert Kept(read + [data]) == kept + [];
      assert kept + [] == kept;
    } else {
      assert Kept(read + [data]) == kept + [data];
      DocumentsSnoc(kept, data);
    }
  }

  /** One more kept row adds one document, numbered after the others. */
  lemma DocumentsSnoc(kept: seq<Row>, data: Row)
    ensures Documents(kept + [data]) == Documents(kept) + [Document(|kept| + 1, data)]
  {
    assert (kept + [data])[..|kept|] == kept;
  }

  /** Document `k` (from 0) is kept row `k` numbered `k + 1`. */
  lemma {:induction false} DocumentsAt(kept: seq<Row>, k: nat)
    requires k < |kept|
    ensures Documents(kept)[k] == Document(k + 1, kept[k])
    decreases |kept|
  {
    if k < |kept| - 1 {
      DocumentsAt(kept[..|kept| - 1], k);
    }
  }

  /** Both ids of a document are `n`. */
  predicate Numbered(doc: Doc, n: int) {
    Id in doc && PatronId in doc && doc[Id] == Int(n) && doc[PatronId] == Int(n)
  }

  /** Document `k` (from 0) is kept row `k` with `_id == Patron_ID == k + 1`:
      the ids run 1, 2, ..., n in file order, so they are unique and strictly
      increasing. */
  lemma DocumentIds(kept: seq<Row>)
    ensures forall k :: 0 <= k < |kept| ==> Documents(kept)[k] == Document(k + 1, kept[k])
    ensures forall k :: 0 <= k < |kept| ==> Numbered(Documents(kept)[k], k + 1)
  {
    forall k | 0 <= k < |kept|
      ensures Documents(kept)[k] == Document(k + 1, kept[k])
    {
      DocumentsAt(kept, k);
    }
  }

  /** The read loop: skip the title and header, skip blank rows, number the
      other rows from 1 and collect their documents for one bulk insert. */
  method Load(lines: seq<Row>) returns (docs: seq<Doc>)
    ensures docs == Documents(Kept(Body(lines)))
  {
    var body := Body(lines);
    docs := [];
    var i := 0;
    while i < |body|
      invariant 0 <= i <= |body|
      invariant docs == Documents(Kept(body[..i]))
    {
      var data := body[i];
      ReadOneMore(body, i);
      ReadStep(body[..i], data, docs);
      if !IsBlankRow(data) {
        docs := docs + [Document(|docs| + 1, data)];
      }
      i := i + 1;
    }
    assert body[..|body|] == body;
  }

  /** The store the loader's documents make: document `k` (from 0) under id
      `k + 1`, without its two ids. */
  function LoadedStore(docs: seq<Doc>): (s: Store)
    ensures forall k :: k in s <==> 1 <= k <= |docs|
    ensures Valid(s)
  {
    map k | k in IdRange(|docs|) :: docs[k - 1] - KeyFields
  }

  lemma LoadedStoreAt(docs: seq<Doc>, j: nat)
    requires j < |docs|
    ensures j + 1 in LoadedStore(docs) && LoadedStore(docs)[j + 1] == docs[j] - KeyFields
  {
  }

  /** The ids 1..n. */
  function IdRange(n: nat): (ids: set<int>)
    ensures forall k :: k in ids <==> 1 <= k <= n
  {
    if n == 0 then {} else IdRange(n - 1) + {n}
  }

  /** The store the loader leaves behind: patron `j + 1` is the document
      built from kept row `j` (counting from 0) without its two ids, and that
      document carries `_id == Patron_ID == j + 1`, so keying the store by
      `Patron_ID` loses nothing. */
  lemma LoadedStoreField(kept: seq<Row>, j: nat, f: Field)
    requires j < |kept| && f !in KeyFields
    ensures j + 1 in LoadedStore(Documents(kept))
    ensures Numbered(Documents(kept)[j], j + 1)
    ensures f in LoadedStore(Documents(kept))[j + 1]
    ensures LoadedStore(Documents(kept))[j + 1][f] == DocValue(j + 1, kept[j], f)
  {
    DocumentsAt(kept, j);
    LoadedStoreAt(Documents(kept), j);
  }
}

=== FILE: mysql_loader.dfy ===
/** The relational batch loader: each kept CSV row becomes one 14-value
    `PATRONS` row, four lookup tables collect the distinct values of their
    columns, and all lookup inserts are issued before the patron inserts. */
module MysqlLoader {
  import opened Common
  import opened Text
  import opened Fields
  import opened CsvRows

  /** The loader's `parse_bool`: `1` for `true`, `0` for `false` (after
      trimming and lower-casing), `NULL` for anything else and for no value. */
  function ParseBool(value: Option<string>): (r: Option<int>)
    ensures r == Some(1) <==> value.Some? && Lower(Strip(value.value)) == "true"
    ensures r == Some(0) <==> value.Some? && Lower(Strip(value.value)) == "false"
    ensures r.None? <==> value.None? || Lower(Strip(value.value)) !in {"true", "false"}
  {
    match value
    case None => None
    case Some(text) =>
      var v := Lower(Strip(text));
      if v == "true" then Some(1)
      else if v == "false" then Some(0)
      else None
  }

  function BoolCell(data: Row, k: nat): Value {
    match ParseBool(Some(Cell(data, k)))
    case Some(n) => Int(n)
    case None => Null
  }

  /** The value the loader puts in column `k`, read from CSV cell `k`: the
      counts go through `int`, `Age_Range` is `NULL` when its cell is empty,
      the two flags go through `parse_bool`, and every other column keeps
      the trimmed cell, empty or not. */
  function ColumnValue(data: Row, k: nat): (v: Value)
    requires k < |Columns|
    ensures v.Null? <==>
              || (Columns[k] == AgeRange && Cell(data, k) == "")
              || (Columns[k] in {TotalCheckouts, TotalRenewals} && ParseInt(Cell(data, k)).None?)
              || (Columns[k] in {ProvidedEmailAddress, WithinSanFranciscoCounty}
                  && Lower(Strip(Cell(data, k))) !in {"true", "false"})
    ensures Columns[k] in {ProvidedEmailAddress, WithinSanFranciscoCounty} && v.Int? ==>
              (v.i == 1 <==> Lower(Strip(Cell(data, k))) == "true") && (v.i == 0 || v.i == 1)
    ensures Columns[k] in {TotalCheckouts, TotalRenewals} ==> v == IntCell(data, k)
    ensures Columns[k] in {ProvidedEmailAddress, WithinSanFranciscoCounty} ==> v.Int? || v.Null?
    ensures Columns[k] !in {TotalCheckouts, TotalRenewals, ProvidedEmailAddress, WithinSanFranciscoCounty} && !v.Null? ==>
              v == Str(Cell(data, k))
  {
    match Columns[k]
    case TotalCheckouts => IntCell(data, k)
    case TotalRenewals => IntCell(data, k)
    case AgeRange => if Cell(data, k) != "" then Str(Cell(data, k)) else Null
    case ProvidedEmailAddress => BoolCell(data, k)
    case WithinSanFranciscoCounty => BoolCell(data, k)
    case _ => Str(Cell(data, k))
  }

  /** The parameter list of one `PATRONS` insert: one value per column of
      `Columns`, column `k` read from CSV cell `k`. */
  function PatronRow(data: Row): (row: seq<Value>)
    ensures |row| == |Columns| == 14
    ensures forall k :: 0 <= k < |Columns| ==> row[k] == ColumnValue(data, k)
  {
    seq(|Columns|, k requires 0 <= k < |Columns| => ColumnValue(data, k))
  }

  /** A short row gives the same `PATRONS` row as the same row padded with
      empty cells. */
  lemma PatronRowPadded(data: Row, n: nat)
    ensures PatronRow(data + seq(n, _ => "")) == PatronRow(data)
  {
    var padded := data + seq(n, _ => "");
    forall k | 0 <= k < |Columns| ensures ColumnValue(padded, k) == ColumnValue(data, k) {
      CellPadded(data, n, k);
    }
  }

  /** The four lookup tables and the CSV cell each one collects. */
  datatype LookupTable = PatronTypes | AgeRanges | Libraries | Notices

  function LookupCell(t: LookupTable): (k: nat)
    ensures k < 14
  {
    match t
    case PatronTypes => 1
    case AgeRanges => 4
    case Libraries => 6
    case Notices => 10
  }

  /** The distinct non-empty values of cell `k` over some rows. */
  function LookupValues(rows: seq<Row>, k: nat): set<string> {
    set r | r in rows && Cell(r, k) != "" :: Cell(r, k)
  }

  lemma LookupValuesSnoc(rows: seq<Row>, r: Row, k: nat)
    ensures LookupValues(rows + [r], k)
         == LookupValues(rows, k) + (if Cell(r, k) != "" then {Cell(r, k)} else {})
  {
    var both := rows + [r];
    forall v | v in LookupValues(both, k)
      ensures v in LookupValues(rows, k) + (if Cell(r, k) != "" then {Cell(r, k)} else {})
    {
      var x :| x in both && Cell(x, k) != "" && Cell(x, k) == v;
      if x != r { assert x in rows; }
    }
    forall v | v in LookupValues(rows, k) ensures v in LookupValues(both, k) {
      var x :| x in rows && Cell(x, k) != "" && Cell(x, k) == v;
      assert x in both;
    }
    if Cell(r, k) != "" {
      assert r in both;
    }
  }

  /** What the loader has gathered once it has read the file. */
  datatype Loaded = Loaded(
    rows: seq<seq<Value>>,
    patronTypes: set<string>,
    ageRanges: set<string>,
    libraries: set<string>,
    notices: set<string>)
  {
    function Values(t: LookupTable): set<string> {
      match t
      case PatronTypes => patronTypes
      case AgeRanges => ageRanges
      case Libraries => libraries
      case Notices => notices
    }
  }

  /** One `PATRONS` row per kept CSV row, in order. */
  function PatronRows(kept: seq<Row>): (rows: seq<seq<Value>>)
    ensures |rows| == |kept|
  {
    if |kept| == 0 then []
    else PatronRows(kept[..|kept| - 1]) + [PatronRow(kept[|kept| - 1])]
  }

  /** Row `k` of the output comes from kept CSV row `k`. */
  lemma {:induction false} PatronRowsAt(kept: seq<Row>, k: nat)
    requires k < |kept|
    ensures PatronRows(kept)[k] == PatronRow(kept[k])
    decreases |kept|
  {
    if k < |kept| - 1 {
      PatronRowsAt(kept[..|kept| - 1], k);
    }
  }

  /** What the loader has gathered from some kept rows, stated row by row
      and table by table. */
  function Gathered(kept: seq<Row>): (g: Loaded)
    ensures |g.rows| == |kept|
  {
    Loaded(PatronRows(kept), LookupValues(kept, 1), LookupValues(kept, 4),
           LookupValues(kept, 6), LookupValues(kept, 10))
  }

  /** Adds a value to a lookup set unless it is empty. */
  function AddNonEmpty(values: set<string>, v: string): set<string> {
    if v != "" then values + {v} else values
  }

  /** The loop body for one non-blank row. */
  function Gather(acc: Loaded, data: Row): Loaded {
    var ageRange := if Cell(data, 4) != "" then Some(Cell(data, 4)) else None;
    Loaded(
      acc.rows + [PatronRow(data)],
      AddNonEmpty(acc.patronTypes, Cell(data, 1)),
      if ageRange.Some? then acc.ageRanges + {ageRange.value} else acc.ageRanges,
      AddNonEmpty(acc.libraries, Cell(data, 6)),
      AddNonEmpty(acc.notices, Cell(data, 10)))
  }

  /** One step of the loop keeps the accumulator equal to `Gathered` of the
      rows kept so far. */
  lemma GatheredSnoc(kept: seq<Row>, data: Row)
    ensures Gathered(kept + [data]) == Gather(Gathered(kept), data)
  {
    var g := Gathered(kept);
    var h := Gathered(kept + [data]);
    assert h.rows == g.rows + [PatronRow(data)] by {
      assert (kept + [data])[..|kept|] == kept;
    }
    assert h.patronTypes == AddNonEmpty(g.patronTypes, Cell(data, 1)) by {
      LookupValuesSnoc(kept, data, 1);
    }
    assert h.ageRanges == AddNonEmpty(g.ageRanges, Cell(data, 4)) by {
      LookupValuesSnoc(kept, data, 4);
    }
    assert h.libraries == AddNonEmpty(g.libraries, Cell(data, 6)) by {
      LookupValuesSnoc(kept, data, 6);
    }
    assert h.notices == AddNonEmpty(g.notices, Cell(data, 10)) by {
      LookupValuesSnoc(kept, data, 10);
    }
  }

  /** Reading one more row gathers it, unless it is blank. */
  lemma GatherStep(read: seq<Row>, data: Row, out: Loaded)
    requires out == Gathered(Kept(read))
    ensures Gathered(Kept(read + [data])) == if IsBlankRow(data) then out else Gather(out, data)
  {
    var kept := Kept(read);
    KeptSnoc(read, data);
    if IsBlankRow(data) {
      assert Kept(read + [data]) == kept + [];
      assert kept + [] == kept;
    } else {
      assert Kept(read + [data]) == kept + [data];
      GatheredSnoc(kept, data);
    }
  }

  /** The read loop: skip the title and header, skip blank rows, turn every
      other row into a `PATRONS` row and add its non-empty lookup values to
      the four sets. */
  method Load(lines: seq<Row>) returns (out: Loaded)
    ensures out == Gathered(Kept(Body(lines)))
  {
    var body := Body(lines);
    out := Loaded([], {}, {}, {}, {});
    var i := 0;
    while i < |body|
      invariant 0 <= i <= |body|
      invariant out == Gathered(Kept(body[..i]))
    {
      var data := body[i];
      ReadOneMore(body, i);
      GatherStep(body[..i], data, out);
      if !IsBlankRow(data) {
        out := Gather(out, data);
      }
      i := i + 1;
    }
    assert body[..|body|] == body;
  }

  /** Every kept row becomes the `PATRONS` row at its own position, and each
      lookup table holds exactly the non-empty values of its cell over the
      kept rows. */
  lemma GatheredContents(kept: seq<Row>, t: LookupTable)
    ensures forall k :: 0 <= k < |kept| ==> Gathered(kept).rows[k] == PatronRow(kept[k])
    ensures Gathered(kept).Values(t) == LookupValues(kept, LookupCell(t))
    ensures forall v :: v in Gathered(kept).Values(t) <==>
              exists r :: r in kept && Cell(r, LookupCell(t)) == v && v != ""
  {
    forall k | 0 <= k < |kept| ensures Gathered(kept).rows[k] == PatronRow(kept[k]) {
      PatronRowsAt(kept, k);
    }
  }

  /** A statement the loader sends to the database after reading. */
  datatype Statement =
    | InsertLookup(table: LookupTable, value: string)
    | InsertPatron(params: seq<Value>)

  predicate Distinct<T(==)>(xs: seq<T>) {
    forall i, j :: 0 <= i < j < |xs| ==> xs[i] != xs[j]
  }

  /** Iterating a set: each element once, in some order. */
  method Enumerate(s: set<string>) returns (xs: seq<string>)
    ensures |xs| == |s| && Distinct(xs)
    ensures forall x :: x in xs <==> x in s
  {
    xs := [];
    var rest := s;
    while rest != {}
      invariant rest <= s
      invariant forall x :: x in xs <==> x in s - rest
      invariant |xs| + |rest| == |s|
      invariant Distinct(xs)
      decreases |rest|
    {
      var x :| x in rest;
      forall i | 0 <= i < |xs| ensures xs[i] != x {
        assert xs[i] in xs;
      }
      xs := xs + [x];
      rest := rest - {x};
    }
  }

  function LookupInserts(t: LookupTable, xs: seq<string>): (stmts: seq<Statement>)
    ensures |stmts| == |xs|
    ensures forall k :: 0 <= k < |xs| ==> stmts[k] == InsertLookup(t, xs[k])
  {
    seq(|xs|, k requires 0 <= k < |xs| => InsertLookup(t, xs[k]))
  }

  /** All lookup inserts, table after table. */
  function AllLookupInserts(p: seq<string>, a: seq<string>, l: seq<string>, n: seq<string>): (stmts: seq<Statement>)
    ensures |stmts| == |p| + |a| + |l| + |n|
    ensures forall k :: 0 <= k < |stmts| ==> stmts[k].InsertLookup?
  {
    LookupInserts(PatronTypes, p) + LookupInserts(AgeRanges, a)
    + LookupInserts(Libraries, l) + LookupInserts(Notices, n)
  }

  lemma LookupInsertsHas(t: LookupTable, xs: seq<string>)
    ensures forall u, v :: InsertLookup(u, v) in LookupInserts(t, xs) <==> u == t && v in xs
  {
    var stmts := LookupInserts(t, xs);
    forall u, v | u == t && v in xs ensures InsertLookup(u, v) in stmts {
      var i :| 0 <= i < |xs| && xs[i] == v;
      assert stmts[i] == InsertLookup(u, v);
    }
  }

  /** The lookup inserts name every value of each table and nothing else. */
  lemma LookupInsertsMembers(out: Loaded, p: seq<string>, a: seq<string>, l: seq<string>, n: seq<string>)
    requires forall x :: x in p <==> x in out.patronTypes
    requires forall x :: x in a <==> x in out.ageRanges
    requires forall x :: x in l <==> x in out.libraries
    requires forall x :: x in n <==> x in out.notices
    ensures forall t, v :: InsertLookup(t, v) in AllLookupInserts(p, a, l, n) <==> v in out.Values(t)
  {
    LookupInsertsHas(PatronTypes, p);
    LookupInsertsHas(AgeRanges, a);
    LookupInsertsHas(Libraries, l);
    LookupInsertsHas(Notices, n);
  }

  /** One `PATRONS` insert per row, in order. */
  function PatronInserts(rows: seq<seq<Value>>): (stmts: seq<Statement>)
    ensures |stmts| == |rows|
    ensures forall k :: 0 <= k < |rows| ==> stmts[k] == InsertPatron(rows[k])
  {
    seq(|rows|, k requires 0 <= k < |rows| => InsertPatron(rows[k]))
  }

  /** Lookup inserts followed by patron inserts: every lookup insert comes
      first, and the lookup inserts of the whole are those of the first part. */
  lemma LookupsThenPatrons(lookups: seq<Statement>, patrons: seq<Statement>)
    requires forall k :: 0 <= k < |lookups| ==> lookups[k].InsertLookup?
    requires forall k :: 0 <= k < |patrons| ==> patrons[k].InsertPatron?
    ensures forall i, j :: 0 <= i < j < |lookups + patrons| && (lookups + patrons)[j].InsertLookup? ==>
              (lookups + patrons)[i].InsertLookup?
    ensures forall t, v :: InsertLookup(t, v) in lookups + patrons <==> InsertLookup(t, v) in lookups
    ensures (lookups + patrons)[..|lookups|] == lookups
    ensures (lookups + patrons)[|lookups|..] == patrons
  {
    var stmts := lookups + patrons;
    forall i, j | 0 <= i < j < |stmts| && stmts[j].InsertLookup?
      ensures stmts[i].InsertLookup?
    {
      assert j < |lookups|;
    }
    forall t, v | InsertLookup(t, v) in stmts ensures InsertLookup(t, v) in lookups {
      var i :| 0 <= i < |stmts| && stmts[i] == InsertLookup(t, v);
      assert i < |lookups|;
    }
  }

  /** The statements in the order they are issued: the four lookup tables,
      each distinct value once, then one `PATRONS` insert per kept row, in
      file order. */
  method Statements(out: Loaded) returns (stmts: seq<Statement>)
    ensures |stmts| == |out.patronTypes| + |out.ageRanges| + |out.libraries| + |out.notices| + |out.rows|
    ensures forall t, v :: InsertLookup(t, v) in stmts <==> v in out.Values(t)
    ensures forall i, j :: 0 <= i < j < |stmts| && stmts[j].InsertLookup? ==> stmts[i].InsertLookup?
    ensures stmts[|stmts| - |out.rows|..] == PatronInserts(out.rows)
    ensures Distinct(stmts[..|stmts| - |out.rows|])
  {
    var p := Enumerate(out.patronTypes);
    var a := Enumerate(out.ageRanges);
    var l := Enumerate(out.libraries);
    var n := Enumerate(out.notices);
    var lookups := AllLookupInserts(p, a, l, n);
    var patrons := PatronInserts(out.rows);
    LookupInsertsMembers(out, p, a, l, n);
    AllLookupInsertsDistinct(p, a, l, n);
    LookupsThenPatrons(lookups, patrons);
    stmts := lookups + patrons;
  }

  /** Distinct values give distinct lookup inserts. */
  lemma AllLookupInsertsDistinct(p: seq<string>, a: seq<string>, l: seq<string>, n: seq<string>)
    requires Distinct(p) && Distinct(a) && Distinct(l) && Distinct(n)
    ensures Distinct(AllLookupInserts(p, a, l, n))
  {
    var lookups := AllLookupInserts(p, a, l, n);
    forall i, j | 0 <= i < j < |lookups| ensures lookups[i] != lookups[j] {
      LookupInsertsDistinct(p, a, l, n, lookups, i, j);
    }
  }

  lemma LookupInsertsDistinct(p: seq<string>, a: seq<string>, l: seq<string>, n: seq<string>,
                              lookups: seq<Statement>, i: nat, j: nat)
    requires Distinct(p) && Distinct(a) && Distinct(l) && Distinct(n)
    requires lookups == AllLookupInserts(p, a, l, n)
    requires i < j < |lookups|
    ensures lookups[i] != lookups[j]
  {
    var b1, b2, b3 := |p|, |p| + |a|, |p| + |a| + |l|;
    if j < b1 {
      assert lookups[i].value == p[i] && lookups[j].value == p[j];
    } else if j < b2 {
      if i >= b1 { assert lookups[i].value == a[i - b1] && lookups[j].value == a[j - b1]; }
    } else if j < b3 {
      if i >= b2 { assert lookups[i].value == l[i - b2] && lookups[j].value == l[j - b2]; }
    } else {
      if i >= b3 { assert lookups[i].value == n[i - b3] && lookups[j].value == n[j - b3]; }
    }
  }

  /** Python's `','.join(items)`. */
  function CommaList(items: seq<string>): string {
    if |items| == 0 then ""
    else if |items| == 1 then items[0]
    else CommaList(items[..|items| - 1]) + "," + items[|items| - 1]
  }

  /** The column list of the insert: each name of `Columns` in backquotes. */
  function ColumnNames(): (names: seq<string>)
    ensures |names| == |Columns|
  {
    seq(|Columns|, k requires 0 <= k < |Columns| => "`" + Name(Columns[k]) + "`")
  }

  /** The placeholder list of the insert: one `%s` per column. */
  function Placeholders(): (marks: seq<string>)
    ensures |marks| == |Columns|
  {
    seq(|Columns|, _ => "%s")
  }

  /** A character other than the separator that occurs once in every item
      occurs in the comma list once per item. */
  lemma {:induction false} CommaListCount(items: seq<string>, c: char)
    requires c != ','
    requires forall k :: 0 <= k < |items| ==> multiset(items[k])[c] == 1
    ensures multiset(CommaList(items))[c] == |items|
    decreases |items|
  {
    if |items| == 1 {
      assert multiset(items[0])[c] == 1;
    } else if |items| > 1 {
      var init := items[..|items| - 1];
      var last := items[|items| - 1];
      forall k | 0 <= k < |init| ensures multiset(init[k])[c] == 1 {
        assert init[k] == items[k];
      }
      CommaListCount(init, c);
      var before := multiset(CommaList(init))[c];
      assert multiset(last)[c] == 1;
      assert multiset(CommaList(items)) == multiset(CommaList(init)) + multiset(",") + multiset(last);
      assert multiset(",")[c] == 0;
      assert multiset(CommaList(items))[c] == before + 1;
    }
  }

  /** The insert the loader formats once, before the loop, joins
      `ColumnNames()` and `Placeholders()` with commas: it names one column
      and carries one `%s` placeholder for each value of a `PatronRow`, 14 of
      each. */
  lemma InsertQueryShape(data: Row)
    ensures |ColumnNames()| == |PatronRow(data)|
    ensures multiset(CommaList(Placeholders()))['%'] == |PatronRow(data)|
  {
    var marks := Placeholders();
    forall k | 0 <= k < |marks| ensures multiset(marks[k])['%'] == 1 {
      assert marks[k] == "%s";
    }
    CommaListCount(marks, '%');
  }
}

=== FILE: sql_app.dfy ===
/** The relational dashboard's handlers: each builds the statement it sends
    (`%s` parameters kept apart from the SQL text), after the same
    whitelist and coercion checks as the document dashboard. */
module SqlApp {
  import opened Common
  import opened Text
  import opened Fields
  import opened Coerce
  import opened PatronStore

  /** The columns of the Add tab's insert, in order; `Patron_ID` is left to
      `AUTO_INCREMENT`. */
  const InsertColumns: seq<Field> := [
    PatronTypeDefinition, TotalCheckouts, TotalRenewals, AgeRange,
    HomeLibraryDefinition, CirculationActiveMonth, CirculationActiveYear,
    NoticePreferenceDefinition, ProvidedEmailAddress, YearPatronRegistered,
    WithinSanFranciscoCounty
  ]

  function FlagParam(r: Option<bool>): (v: Value)
    ensures v.Null? <==> r.None?
    ensures r.Some? ==> v == Int(if r.value then 1 else 0)
  {
    match r
    case Some(b) => Int(if b then 1 else 0)
    case None => Null
  }

  /** The parameter the Add tab binds for column `f`: empty texts become
      `NULL`, each flag is `NULL` when its box is ticked and 1 or 0
      otherwise. */
  function ParamValue(form: AddForm, f: Field): Value
    requires f in InsertColumns
  {
    match f
    case PatronTypeDefinition => OrNull(form.patronType)
    case TotalCheckouts => CountValue(form.totalCheckouts)
    case TotalRenewals => CountValue(form.totalRenewals)
    case AgeRange => OrNull(form.ageRange)
    case HomeLibraryDefinition => OrNull(form.homeLibrary)
    case CirculationActiveMonth => OrNull(form.circulationMonth)
    case CirculationActiveYear => OrNull(form.circulationYear)
    case NoticePreferenceDefinition => OrNull(form.noticePreference)
    case ProvidedEmailAddress => FlagParam(NullableFlag(form.providedEmail, form.providedEmailNull))
    case YearPatronRegistered => OrNull(form.yearRegistered)
    case WithinSanFranciscoCounty => FlagParam(NullableFlag(form.sfCounty, form.sfCountyNull))
  }

  /** The Add tab's parameter tuple: one value per column of
      `InsertColumns`, in order, eleven in all, none of them `Patron_ID`. */
  function InsertParams(form: AddForm): (params: seq<Value>)
    ensures |params| == |InsertColumns| == 11
    ensures PatronId !in InsertColumns && Id !in InsertColumns
    ensures forall k :: 0 <= k < |params| ==> params[k] == ParamValue(form, InsertColumns[k])
  {
    seq(|InsertColumns|, k requires 0 <= k < |InsertColumns| => ParamValue(form, InsertColumns[k]))
  }

  /** No parameter is a boolean: flags are bound as 1 or 0, or `NULL` when
      their box is ticked. */
  lemma InsertParamsFlags(form: AddForm)
    ensures forall k :: 0 <= k < |InsertParams(form)| ==> !InsertParams(form)[k].Bool?
    ensures InsertParams(form)[8] == (if form.providedEmailNull then Null else Int(if form.providedEmail then 1 else 0))
    ensures InsertParams(form)[10] == (if form.sfCountyNull then Null else Int(if form.sfCounty then 1 else 0))
  {
    var params := InsertParams(form);
    forall k | 0 <= k < |params| ensures !params[k].Bool? {
      assert params[k] == ParamValue(form, InsertColumns[k]);
    }
  }

  /** The record an insert adds: each column of `InsertColumns` holds the
      parameter at its position. */
  function InsertedRecord(form: AddForm): (r: Record)
    ensures ValidRecord(r)
    ensures forall f :: f in r <==> f in InsertColumns
    ensures forall k :: 0 <= k < |InsertColumns| ==>
              InsertColumns[k] in r && r[InsertColumns[k]] == InsertParams(form)[k]
  {
    map f | f in InsertColumns :: ParamValue(form, f)
  }

  /** The insert on the store: the engine picks an id no row has. */
  function Insert(s: Store, id: int, form: AddForm): (t: Store)
    requires id !in s
    ensures t.Keys == s.Keys + {id}
    ensures forall k :: k in s ==> t[k] == s[k]
    ensures t[id] == InsertedRecord(form)
  {
    PatronStore.Insert(s, id, InsertedRecord(form))
  }

  /** The Update tab's coercion: blank gives `NULL`; the two counts go
      through `int()`; a flag token gives 1 or 0 and an unknown token gives
      `NULL`; any other field, `Patron_ID` included, gets the trimmed text. */
  function UpdateValue(f: Field, input: string): (r: Result<Option<Value>, UpdateError>)
    ensures r.Failure? <==> f in {TotalCheckouts, TotalRenewals} && !AllSpace(input) && ParseInt(Strip(input)).None?
    ensures r.Failure? ==> r.error == NotAnInteger
    ensures r.Success? && r.value.None? <==>
              AllSpace(input) || (f in BoolFields && BoolToken(Lower(Strip(input))).None?)
    ensures r.Success? && r.value.Some? ==> !r.value.value.Null? && !r.value.value.Bool?
    ensures !AllSpace(input) && f in {TotalCheckouts, TotalRenewals} && ParseInt(Strip(input)).Some? ==>
              r == Success(Some(Int(ParseInt(Strip(input)).value)))
    ensures !AllSpace(input) && f in BoolFields && Lower(Strip(input)) in TrueTokens ==>
              r == Success(Some(Int(1)))
    ensures !AllSpace(input) && f in BoolFields && Lower(Strip(input)) in FalseTokens ==>
              r == Success(Some(Int(0)))
    ensures !AllSpace(input) && f !in {TotalCheckouts, TotalRenewals} && f !in BoolFields ==>
              r == Success(Some(Str(Strip(input))))
  {
    match NullIfBlank(input)
    case None => Success(None)
    case Some(text) =>
      if f in {TotalCheckouts, TotalRenewals} then
        match ParseInt(text)
        case Some(n) => Success(Some(Int(n)))
        case None => Failure(NotAnInteger)
      else if f in BoolFields then
        match BoolToken(Lower(text))
        case Some(b) => Success(Some(Int(if b then 1 else 0)))
        case None => Success(None)
      else Success(Some(Str(text)))
  }

  /** `UPDATE PATRONS SET field = NULL WHERE Patron_ID = %s`, or
      `UPDATE PATRONS SET field = %s WHERE Patron_ID = %s`. */
  datatype UpdateStatement =
    | SetNull(field: Field, id: int)
    | SetParam(field: Field, value: Value, id: int)

  /** The Update tab: the field name reaches the SQL text only when it is on
      the whitelist; the statement is keyed on `Patron_ID` alone. */
  function Update(name: string, input: string, id: int): (r: Result<UpdateStatement, UpdateError>)
    ensures r == Failure(InvalidField) <==> AllowedField(name).None?
    ensures r.Success? ==> r.value.field in AllowedFields && Name(r.value.field) == name
    ensures r.Success? ==> r.value.id == id
    ensures r.Success? ==>
              (r.value.SetNull? <==> UpdateValue(r.value.field, input) == Success(None))
    ensures r.Success? && r.value.SetParam? ==>
              UpdateValue(r.value.field, input) == Success(Some(r.value.value))
    ensures AllowedField(name).Some? && UpdateValue(AllowedField(name).value, input).Failure? ==>
              r == Failure(UpdateValue(AllowedField(name).value, input).error)
    ensures AllowedField(name).Some? && UpdateValue(AllowedField(name).value, input).Success? ==> r.Success?
  {
    match AllowedField(name)
    case None => Failure(InvalidField)
    case Some(f) =>
      match UpdateValue(f, input)
      case Failure(e) => Failure(e)
      case Success(None) => Success(SetNull(f, id))
      case Success(Some(v)) => Success(SetParam(f, v, id))
  }

  /** `SELECT * FROM PATRONS WHERE field IS NULL`, `... LIKE %s` or
      `... = %s`, with the parameter it binds. */
  datatype SearchStatement =
    | WhereNull(field: Field)
    | WhereLike(field: Field, pattern: string)
    | WhereEquals(field: Field, param: string)

  /** The Search tab: IS NULL ignores the value; LIKE wraps the value in
      `%`; an exact search binds the value as typed, untrimmed. */
  function Search(f: Field, mode: Mode, nullSearch: bool, value: string): (r: SearchStatement)
    ensures r.field == f
    ensures nullSearch <==> r.WhereNull?
    ensures r.WhereLike? ==> |r.pattern| == |value| + 2 && r.pattern[1..|r.pattern| - 1] == value
                             && r.pattern[0] == '%' && r.pattern[|r.pattern| - 1] == '%'
    ensures r.WhereEquals? ==> r.param == value
    ensures !nullSearch ==> (r.WhereLike? <==> mode == Like)
  {
    if nullSearch then WhereNull(f)
    else if mode == Like then WhereLike(f, "%" + value + "%")
    else WhereEquals(f, value)
  }

  /** The statements of the Delete tab. */
  datatype DeleteStatement = SelectById(id: int) | DeleteById(id: int)

  /** The Delete tab: a `SELECT` first; the `DELETE` only when it returned
      a row. */
  function Delete(s: Store, id: int): (r: (Outcome, seq<DeleteStatement>, Store))
    ensures r.0 == NotFound <==> id !in s
    ensures |r.1| > 0 && r.1[0] == SelectById(id)
    ensures DeleteById(id) in r.1 <==> id in s
    ensures r.0 == NotFound ==> r.1 == [SelectById(id)] && r.2 == s
    ensures r.0 == Deleted ==> r.1 == [SelectById(id), DeleteById(id)] && r.2 == s - {id}
  {
    var (outcome, t) := PatronStore.Delete(s, id);
    if outcome == NotFound then (outcome, [SelectById(id)], t)
    else (outcome, [SelectById(id), DeleteById(id)], t)
  }
}

=== FILE: store.dfy ===
/** The patrons collection seen as a map from `Patron_ID` to the patron's
    other fields, with the operations the dashboards perform on it: insert
    under a fresh id, set or unset one field, change the id, delete. */
module PatronStore {
  import opened Common
  import opened Fields

  /** A patron's fields other than its ids. */
  type Record = Doc

  type Store = map<int, Record>

  /** The fields that name a patron rather than describe it. */
  const KeyFields: set<Field> := {Id, PatronId}

  predicate ValidRecord(r: Record) {
    Id !in r && PatronId !in r
  }

  /** Records never repeat their key inside. */
  predicate Valid(s: Store) {
    forall k :: k in s ==> ValidRecord(s[k])
  }

  /** The document dashboard's `next_id`: one more than the largest
      `Patron_ID`, or 1 when there is none. */
  method NextId(s: Store) returns (id: int)
    ensures id !in s
    ensures forall k :: k in s ==> k < id
    ensures s == map[] ==> id == 1
    ensures s != map[] ==> id - 1 in s
  {
    if s == map[] {
      return 1;
    }
    var rest := s.Keys;
    HasMember(rest);
    var top :| top in rest;
    rest := rest - {top};
    while rest != {}
      invariant rest <= s.Keys
      invariant top in s
      invariant forall k :: k in s && k !in rest ==> k <= top
      decreases |rest|
    {
      HasMember(rest);
      var k :| k in rest;
      if k > top {
        top := k;
      }
      rest := rest - {k};
    }
    id := top + 1;
  }

  /** A set of ids is empty or has a member. */
  lemma HasMember(ids: set<int>)
    ensures ids == {} || exists k :: k in ids
  {
    if forall k :: k !in ids {
      assert ids == {};
    }
  }

  /** Adds a record under an id no patron has. */
  function Insert(s: Store, id: int, r: Record): (t: Store)
    requires id !in s
    ensures t.Keys == s.Keys + {id}
    ensures |t| == |s| + 1
    ensures id in t && t[id] == r
    ensures forall k :: k in s ==> t[k] == s[k]
  {
    s[id := r]
  }

  /** A change to one field: `$set` / `SET field = %s`, or `$unset` /
      `SET field = NULL`. */
  datatype Change = Unset | Set(value: Value)

  /** The record after a change: a set field holds the new value, an unset
      field is gone, every other field is as it was. */
  function Apply(r: Record, f: Field, c: Change): (u: Record)
    ensures c.Set? ==> f in u && u[f] == c.value
    ensures c.Unset? ==> f !in u
    ensures forall g :: g != f ==> (g in u <==> g in r)
    ensures forall g :: g != f && g in r ==> u[g] == r[g]
  {
    match c
    case Set(v) => r[f := v]
    case Unset => r - {f}
  }

  /** Changes one descriptive field of the patron with id `id`; no patron
      with that id means no change. */
  function Update(s: Store, id: int, f: Field, c: Change): (t: Store)
    requires f !in KeyFields
    ensures id !in s ==> t == s
    ensures t.Keys == s.Keys
    ensures forall k :: k in s && k != id ==> t[k] == s[k]
    ensures id in s ==> t[id] == Apply(s[id], f, c)
  {
    if id in s then s[id := Apply(s[id], f, c)] else s
  }

  /** Why changing a patron's id can fail: another patron has the new id,
      or the new id is not an integer (a `NULL` or a text). */
  datatype KeyError = DuplicateKey | KeyNotInteger

  /** Changes the id of the patron with id `id`. */
  function UpdateKey(s: Store, id: int, c: Change): (t: Result<Store, KeyError>)
    ensures id !in s ==> t == Success(s)
    ensures t.Failure? ==> id in s
    ensures t.Failure? <==> id in s && (c.Unset? || !c.value.Int? || (c.value.i != id && c.value.i in s))
    ensures t.Success? && id in s && c.Set? ==>
              t.value.Keys == s.Keys - {id} + {c.value.i}
              && t.value[c.value.i] == s[id]
              && forall k :: k in s && k != id ==> t.value[k] == s[k]
  {
    if id !in s then Success(s)
    else match c
      case Unset => Failure(KeyNotInteger)
      case Set(v) =>
        if !v.Int? then Failure(KeyNotInteger)
        else if v.i == id then Success(s)
        else if v.i in s then Failure(DuplicateKey)
        else Success((s - {id})[v.i := s[id]])
  }

  /** What a delete reports. */
  datatype Outcome = Deleted | NotFound

  /** Deletes the patron with id `id`, after checking that there is one. */
  function Delete(s: Store, id: int): (r: (Outcome, Store))
    ensures r.0 == NotFound <==> id !in s
    ensures r.0 == NotFound ==> r.1 == s
    ensures r.0 == Deleted ==> r.1.Keys == s.Keys - {id} && |r.1| == |s| - 1
    ensures forall k :: k in r.1 ==> k in s && r.1[k] == s[k]
  {
    if id !in s then (NotFound, s) else (Deleted, s - {id})
  }

  /** Inserting a valid record keeps the store valid. */
  lemma InsertKeepsValid(s: Store, id: int, r: Record)
    requires Valid(s) && id !in s && ValidRecord(r)
    ensures Valid(Insert(s, id, r))
  {
  }

  /** Changing a descriptive field keeps the store valid. */
  lemma UpdateKeepsValid(s: Store, id: int, f: Field, c: Change)
    requires Valid(s) && f !in KeyFields
    ensures Valid(Update(s, id, f, c))
  {
    var t := Update(s, id, f, c);
    forall k | k in t ensures ValidRecord(t[k]) {
      if k == id {
        assert Id != f && PatronId != f;
      }
    }
  }

  /** Changing a patron's id keeps the store valid. */
  lemma UpdateKeyKeepsValid(s: Store, id: int, c: Change)
    requires Valid(s) && UpdateKey(s, id, c).Success?
    ensures Valid(UpdateKey(s, id, c).value)
  {
  }

  /** Deleting keeps the store valid. */
  lemma DeleteKeepsValid(s: Store, id: int)
    requires Valid(s)
    ensures Valid(Delete(s, id).1)
  {
  }

  /** Deleting a patron just inserted gives the store back. */
  lemma DeleteInsert(s: Store, id: int, r: Record)
    requires id !in s
    ensures Delete(Insert(s, id, r), id) == (Deleted, s)
  {
    assert Insert(s, id, r) - {id} == s;
  }

  /** Setting a field and reading it gives the value set; unsetting then
      setting is the same as setting. */
  lemma SetThenGet(s: Store, id: int, f: Field, v: Value)
    requires f !in KeyFields && id in s
    ensures f in Update(s, id, f, Set(v))[id] && Update(s, id, f, Set(v))[id][f] == v
    ensures Update(Update(s, id, f, Unset), id, f, Set(v)) == Update(s, id, f, Set(v))
  {
    var a := Update(Update(s, id, f, Unset), id, f, Set(v));
    var b := Update(s, id, f, Set(v));
    assert a[id] == b[id];
  }

  /** Unsetting a field the record does not hold changes nothing; setting a
      field to the value it holds changes nothing. */
  lemma UpdateNoOp(s: Store, id: int, f: Field, v: Value)
    requires f !in KeyFields && id in s
    ensures f !in s[id] ==> Update(s, id, f, Unset) == s
    ensures f in s[id] && s[id][f] == v ==> Update(s, id, f, Set(v)) == s
  {
    if f !in s[id] {
      assert Apply(s[id], f, Unset) == s[id];
    }
    if f in s[id] && s[id][f] == v {
      assert Apply(s[id], f, Set(v)) == s[id];
    }
  }
}

=== FILE: text.dfy ===
/** The fragment of Python's `str` and `int` behaviour that the loaders and
    the two dashboards rely on: `strip()`, `lower()` on the tokens they
    compare against, and `int(text)` as a plain decimal parser. */
module Text {
  import opened Common

  /** Python's `str.isspace()`: the characters `strip()` removes when it is
      called without arguments. */
  predicate IsSpace(c: char) {
    || ('\U{09}' <= c <= '\U{0D}')
    || ('\U{1C}' <= c <= ' ')
    || c == '\U{85}' || c == '\U{A0}' || c == '\U{1680}'
    || ('\U{2000}' <= c <= '\U{200A}')
    || c == '\U{2028}' || c == '\U{2029}' || c == '\U{202F}'
    || c == '\U{205F}' || c == '\U{3000}'
  }

  predicate AllSpace(s: string) {
    forall i :: 0 <= i < |s| ==> IsSpace(s[i])
  }

  /** Neither end of `s` is whitespace: what `strip()` guarantees. */
  predicate Trimmed(s: string) {
    s == [] || (!IsSpace(s[0]) && !IsSpace(s[|s| - 1]))
  }

  /** `s` without its whitespace prefix. */
  function TrimStart(s: string): (r: string)
    ensures |r| <= |s|
  {
    if |s| > 0 && IsSpace(s[0]) then TrimStart(s[1..]) else s
  }

  /** `s` without its whitespace suffix. */
  function TrimEnd(s: string): (r: string)
    ensures |r| <= |s|
  {
    if |s| > 0 && IsSpace(s[|s| - 1]) then TrimEnd(s[..|s| - 1]) else s
  }

  /** Python's `s.strip()`; `StripFacts` and `StripPadded` say what it
      computes. */
  function Strip(s: string): (r: string)
    ensures |r| <= |s|
  {
    TrimEnd(TrimStart(s))
  }

  /** `TrimStart` removes a whitespace prefix and stops at the first other
      character. */
  lemma {:induction false} TrimStartCut(s: string)
    ensures TrimStart(s) == s[|s| - |TrimStart(s)|..]
    ensures AllSpace(s[..|s| - |TrimStart(s)|])
    ensures TrimStart(s) == [] || !IsSpace(TrimStart(s)[0])
    decreases |s|
  {
    if |s| > 0 && IsSpace(s[0]) {
      TrimStartCut(s[1..]);
      var k := |s| - |TrimStart(s)|;
      assert s[..k] == [s[0]] + s[1..][..k - 1];
    }
  }

  /** `TrimEnd` removes a whitespace suffix and stops at the last other
      character. */
  lemma {:induction false} TrimEndCut(s: string)
    ensures TrimEnd(s) == s[..|TrimEnd(s)|]
    ensures AllSpace(s[|TrimEnd(s)|..])
    ensures TrimEnd(s) == [] || !IsSpace(TrimEnd(s)[|TrimEnd(s)| - 1])
    decreases |s|
  {
    if |s| > 0 && IsSpace(s[|s| - 1]) {
      var init := s[..|s| - 1];
      TrimEndCut(init);
      var k := |TrimEnd(s)|;
      assert s[k..] == init[k..] + [s[|s| - 1]];
    }
  }

  /** What `strip()` guarantees: no whitespace at either end, and an empty
      result exactly for an all-whitespace text. */
  lemma StripFacts(s: string)
    ensures Trimmed(Strip(s))
    ensures Strip(s) == [] <==> AllSpace(s)
  {
    var u := TrimStart(s);
    TrimStartCut(s);
    TrimEndCut(u);
    var r := TrimEnd(u);
    if r != [] {
      assert r[0] == u[0];
      assert !AllSpace(s) by {
        assert s[|s| - |u|] == u[0];
      }
    } else {
      assert u == [];
      assert s[..|s| - |u|] == s;
    }
  }

  /** `s` is `t` with whitespace, possibly none, on either side. */
  ghost predicate WhitespaceAround(s: string, t: string) {
    exists p, q :: AllSpace(p) && AllSpace(q) && s == p + t + q
  }

  /** `strip()` only cuts whitespace from the two ends. */
  lemma StripSplit(s: string)
    ensures WhitespaceAround(s, Strip(s))
  {
    var u := TrimStart(s);
    TrimStartCut(s);
    var t := TrimEnd(u);
    TrimEndCut(u);
    var p := s[..|s| - |u|];
    var q := u[|t|..];
    assert s == p + u;
    assert u == t + q;
    assert AllSpace(p) && AllSpace(q) && s == p + Strip(s) + q;
  }

  lemma {:induction false} TrimStartSpaces(p: string, u: string)
    requires AllSpace(p)
    requires u == [] || !IsSpace(u[0])
    ensures TrimStart(p + u) == u
    decreases |p|
  {
    if |p| > 0 {
      assert (p + u)[1..] == p[1..] + u;
      TrimStartSpaces(p[1..], u);
    } else {
      assert p + u == u;
    }
  }

  lemma {:induction false} TrimEndSpaces(u: string, q: string)
    requires AllSpace(q)
    requires u == [] || !IsSpace(u[|u| - 1])
    ensures TrimEnd(u + q) == u
    decreases |q|
  {
    if |q| > 0 {
      assert (u + q)[..|u + q| - 1] == u + q[..|q| - 1];
      TrimEndSpaces(u, q[..|q| - 1]);
    } else {
      assert u + q == u;
    }
  }

  /** Uniqueness: surrounding a trimmed text with whitespace on both sides
      and stripping gives the text back, so `Strip` is fully determined by
      `StripFacts` and the fact that it only cuts whitespace. */
  lemma StripPadded(p: string, t: string, q: string)
    requires AllSpace(p) && AllSpace(q) && Trimmed(t)
    ensures Strip(p + t + q) == t
  {
    assert p + t + q == p + (t + q);
    if t == [] {
      assert p + t + q == (p + q) + [];
      TrimStartSpaces(p + q, []);
    } else {
      assert (t + q)[0] == t[0];
      TrimStartSpaces(p, t + q);
      TrimEndSpaces(t, q);
    }
  }

  /** `strip()` leaves an already trimmed text alone. */
  lemma StripTrimmed(t: string)
    requires Trimmed(t)
    ensures Strip(t) == t
  {
    StripPadded([], t, []);
    assert [] + t + [] == t;
  }

  /** `strip()` is idempotent. */
  lemma StripIdempotent(s: string)
    ensures Strip(Strip(s)) == Strip(s)
  {
    StripFacts(s);
    StripTrimmed(Strip(s));
  }

  function LowerChar(c: char): (d: char)
    ensures 'A' <= c <= 'Z' ==> 'a' <= d <= 'z'
    ensures !('A' <= c <= 'Z') ==> d == c
  {
    if 'A' <= c <= 'Z' then (c as int + 32) as char else c
  }

  /** Python's `s.lower()` on ASCII letters; every other character is kept.
      The texts it is compared against are ASCII lower-case words, so the
      outcome of such a comparison is the same as with full Unicode case
      mapping. */
  function Lower(s: string): (r: string)
    ensures |r| == |s|
  {
    seq(|s|, i requires 0 <= i < |s| => LowerChar(s[i]))
  }

  /** A text with no upper-case ASCII letter is its own lower-case form, so
      comparing `lower()` of an input with a lower-case word does not depend
      on how letters outside ASCII are mapped. */
  lemma LowerKeepsLowerCase(s: string)
    requires forall i :: 0 <= i < |s| ==> !('A' <= s[i] <= 'Z')
    ensures Lower(s) == s
  {
    assert forall i :: 0 <= i < |s| ==> Lower(s)[i] == s[i];
  }

  predicate IsDigit(c: char) {
    '0' <= c <= '9'
  }

  predicate AllDigits(s: string) {
    forall i :: 0 <= i < |s| ==> IsDigit(s[i])
  }

  /** The number a run of decimal digits denotes, most significant first. */
  function DigitsValue(ds: string): (n: nat)
    requires AllDigits(ds)
  {
    if |ds| == 0 then 0
    else DigitsValue(ds[..|ds| - 1]) * 10 + (ds[|ds| - 1] as int - '0' as int)
  }

  /** Python's `int(text)`: after stripping, an optional `+` or `-` and one or
      more decimal digits; anything else raises, shown here as `None`. */
  function ParseInt(text: string): (r: Option<int>)
    ensures r.Some? ==> Strip(text) != []
  {
    var t := Strip(text);
    if |t| > 0 && (t[0] == '+' || t[0] == '-') then
      var ds := t[1..];
      if |ds| > 0 && AllDigits(ds) then
        var v: int := DigitsValue(ds);
        Some(if t[0] == '-' then -v else v)
      else None
    else if |t| > 0 && AllDigits(t) then Some(DigitsValue(t))
    else None
  }

  /** Python's `str(n)` for a natural number. */
  function ShowNat(n: nat): (s: string)
    ensures |s| > 0 && AllDigits(s)
  {
    var d := ['0' + (n % 10) as char];
    if n < 10 then d else ShowNat(n / 10) + d
  }

  /** Python's `str(n)` for an integer. */
  function ShowInt(n: int): (s: string)
    ensures |s| > 0
  {
    if n < 0 then "-" + ShowNat(-n) else ShowNat(n)
  }

  lemma {:induction false} DigitsOfShowNat(n: nat)
    ensures DigitsValue(ShowNat(n)) == n
    decreases n
  {
    var s := ShowNat(n);
    if n >= 10 {
      DigitsOfShowNat(n / 10);
      assert s[..|s| - 1] == ShowNat(n / 10);
    }
  }

  /** Round trip: reading back the decimal text of any integer gives the
      integer. */
  lemma ParseShowInt(n: int)
    ensures ParseInt(ShowInt(n)) == Some(n)
  {
    var s := ShowInt(n);
    assert Trimmed(s) by {
      assert !IsSpace(s[0]) && !IsSpace(s[|s| - 1]);
    }
    StripTrimmed(s);
    if n < 0 {
      assert s[1..] == ShowNat(-n);
      DigitsOfShowNat(-n);
    } else {
      DigitsOfShowNat(n);
    }
  }
}
